=== FILE: README.md ===
# Conversation memory of a retrieval-augmented customer-service bot

This project models the conversation-memory core of a LangChain customer-service agent
written in Python, and proves properties about that model. The core has four parts:

- **History stores.** Two of them keep every user's conversation turns as documents in
  one shared Chroma vector collection. Each turn is tagged with metadata
  `{user_id, type: "conversation", timestamp}`.
  - The service store (`service/chatHistoryStrore.py`) refuses to save a turn when the
    user message or the bot response is too similar to one of the user's stored turns.
    The similarity is a cosine strictly above 0.8 against the top 3 neighbours.
  - The lib store (`lib/chat_history_store.py`) appends every turn.
  - Both load a user's recent history through a filtered similarity search, with a
    fixed query text.
- **`process_customer_question`.** There are three variants: `service/llm.py`,
  `lib/llm.py` and `tools_retriever.py`. Each one:
  1. gets or creates the caller's per-user memory;
  2. reconciles it with a caller-supplied JSON history, or (in `service/llm.py` and
     `lib/llm.py` only) with the store;
  3. runs the agent with the rendered memory;
  4. remembers the new exchange;
  5. (in `service/llm.py` and `lib/llm.py` only) saves the turn to the store when it has
     a user id.
  `tools_retriever.py` never reads or writes a store: its memory is fed only by the
  caller's history and its own saved exchanges.
  The service memory is an unbounded buffer. The other two are windows of 30 exchanges.
- **Keyword tools** (`service/tools.py`). These are first-match classifiers over
  substrings of the question, against a fixed current date of 2025-03-03:
  `extract_json_from_question`, `web_search` and `x_search`.
- **The summary prompt** (`service/prompt.py`, `summarize`).

## How the system is modelled

- **The store** is a `seq<Record>`. Every operation is a pure function that returns the
  store it leaves behind. "Raises" is a `Result` with a `Failure`.
- **Collaborators are parameters.** These are the vector index, the embedding model, the
  agent executor, `json.loads` of the caller's history, and the clock.
  - `Records.Search` is the index's filtered `similarity_search`. It receives the
    records that pass the user/type filter and `k`, and answers `None` (it raised) or at
    most `k` of those records, in an order it chooses.
  - `Records.Embedder` is `embed_query` together with the cosine against a stored page.
  - `Records.Indexer` is `add_documents`: whether the index accepts the new record or
    raises.
- **Memories** are a map from the optional user id to a sequence of exchanges. Python
  keys `None` as well, so all anonymous calls share one memory.
- **Window memory** keeps the whole buffer and hands the agent its last 30 exchanges.
  `Memory.WindowForgetsEvicted` proves that this is indistinguishable from a buffer that
  evicts its oldest exchanges.
- **Caller JSON** is one of:
  - `Unparsable`: `json.loads` raises before the memory is cleared.
  - `Unusable`: it parses, but `.get` or the iteration raises after the clear.
  - `Document`: an object, with or without a `history` list, whose entries may lack
    `user` or `bot`.
- **Module layout** follows the source files:

  | module | models |
  |---|---|
  | `Records` | the shared record format, filter and loader |
  | `ChatHistoryStore` | the service store |
  | `LibChatHistoryStore` | the lib store |
  | `Memory` | the langchain buffer and window memory, and the replay |
  | `ServiceLlm`, `LibLlm`, `ToolsRetriever` | the three turn functions |
  | `Tools`, with `Dates` and `Text` | the keyword tools |
  | `Prompt` | `summarize` |
  | `StableSort` | Python's stable `list.sort(key=..., reverse=True)` |
  | `Common` | shared vocabulary |

### Behaviour of the code worth knowing

- **Duplicate check.** The code re-embeds the whole serialized `page_content` of each
  hit, which is the JSON of user, bot and timestamp (service/chatHistoryStrore.py:42).
  It does not use the stored user text alone. `Embedder.similarity` therefore takes the
  whole `Page`.
- **Load order.** The timestamp sort at service/chatHistoryStrore.py:105 is a no-op. The
  loaded `{user, bot}` entries carry no "timestamp", so every key is `""` and Python's
  stable sort keeps them in place. `StableSort.SortDescConstantKey` proves this. Entries
  come back in the order the index returned them and are replayed unreversed.
- **Window.** langchain's window memory keeps every saved exchange and shows only the
  last `k`. `Memory.WindowForgetsEvicted` proves this is equivalent to evicting.
- **Summary prompt.** `summarize` writes every user message and every bot reply
  (service/prompt.py:33).

## Model

| member | source | states |
|---|---|---|
| Common.Truthy | service/llm.py:68 | Python truthiness of `chat_history` and `user_id`: `None` and `""` are both false (definition; the same tests are at service/llm.py:79, :105, lib/llm.py:70, :81, :107 and tools_retriever.py:44) |
| Records.IsConversationOf | service/chatHistoryStrore.py:33-36 | the `{"$and": [user_id, type]}` filter: a record matches iff its metadata has this user id and type "conversation"; a missing key never matches (definition) |
| Records.Conversations | service/chatHistoryStrore.py:30-37 | the user/type filter admits exactly the store's records with this user id and type "conversation"; no record is invented |
| Records.ConversationsAppend | service/chatHistoryStrore.py:33-36 | the filter is applied record by record, so it distributes over concatenating stores |
| Records.EntryOf | service/chatHistoryStrore.py:97-101 | what `json.loads` of a page yields: `{user, bot}` for a turn written by a save, nothing for raw text |
| Records.TurnRecord | service/chatHistoryStrore.py:65-77 | the record a save writes passes this user's filter, carries one timestamp in metadata and content, and loads back as `{user, bot}` |
| Records.Entries | service/chatHistoryStrore.py:93-103 | parsing the hits skips the ones whose content is not a `{user, bot}` JSON object and keeps every one that is; every entry comes from some hit |
| Records.EntriesAppend | service/chatHistoryStrore.py:94-101 | the hits are parsed one after another, so the entries follow the order of the hits |
| Records.LoadHistory | service/chatHistoryStrore.py:81-110 | at most `limit` entries; nothing when the index raises; otherwise exactly the parsed hits, in index order; every entry comes from one of this user's conversation records |
| Records.TimestampKey | service/chatHistoryStrore.py:105 | the key `x.get("timestamp", "")` on a loaded `{user, bot}` entry, which never has a "timestamp", so always `""` (definition) |
| Records.NothingToLoad | service/chatHistoryStrore.py:81-110 | a user without conversation records loads nothing back, whatever the index answers |
| StableSort.SortDesc | service/chatHistoryStrore.py:105 | the sort is a permutation of the loaded entries |
| StableSort.Below | service/chatHistoryStrore.py:105 | Python's `<` on `str`: lexicographic by code point, a proper prefix below its extensions (definition; its order laws are proved alongside) |
| StableSort.SortDescIsDescending | service/chatHistoryStrore.py:105 | the result is in descending key order (Python string order) |
| StableSort.SortDescConstantKey | service/chatHistoryStrore.py:105 | the sort is stable, so when every key is equal (here `""`, since loaded entries have no "timestamp") it returns the entries unchanged |
| ChatHistoryStore.ScanHits | service/chatHistoryStrore.py:39-52 | the scan answers true iff some hit's cosine is strictly above the threshold; hits whose embedding raises are skipped |
| ChatHistoryStore.CheckSimilarity | service/chatHistoryStrore.py:17-52 | embedding and search failures propagate as errors, and when both succeed the result is `Ok`; true iff some returned neighbour scores strictly above the threshold, and then a record of this user's conversations witnesses it |
| ChatHistoryStore.GateOn | service/chatHistoryStrore.py:28-52 | the embed, search and scan once the filter has been applied: a true verdict means the embedding succeeded and some candidate record scores strictly above the threshold |
| ChatHistoryStore.Similar | service/chatHistoryStrore.py:57-63 | the two gate calls of `save_conversation`, with the default threshold 0.8 and `k` 3 (definition; pinned through `ChatHistoryStore.CheckSimilarity`) |
| ChatHistoryStore.FailingHitsSkipped | service/chatHistoryStrore.py:39-52 | hits whose similarity raises are skipped: if every hit fails, the verdict is false and nothing is raised |
| ChatHistoryStore.SaveConversation | service/chatHistoryStrore.py:54-79 | refused (store unchanged) when the user message is similar, without checking the bot response; refused (store unchanged) when only the bot response is similar; a raising check makes the save raise with that error; saved iff both checks say not similar and `add_documents` accepts the record, and then exactly one turn record is appended; when both checks pass and `add_documents` raises, the save raises `WriteFailed` |
| ChatHistoryStore.LoadRecentHistory | service/chatHistoryStrore.py:81-110 | with query "abc": at most `limit` entries, in index order, all from this user's conversations, nothing when the index raises |
| ChatHistoryStore.DeleteUserHistory | service/chatHistoryStrore.py:112-125 | a reachable index deletes exactly this user's conversation records and returns true, and every other record survives with all its copies (multiset of survivors plus deleted equals the store); otherwise nothing changes and false is returned |
| ChatHistoryStore.Remove | service/chatHistoryStrore.py:115-120 | the records left are exactly those the delete filter does not match, each with all its copies: the survivors and the matched records together make up the store as a multiset |
| ChatHistoryStore.DeleteKeepsOtherUsers | service/chatHistoryStrore.py:112-125 | deleting one user's history leaves every other user's conversation records as they were, in order |
| ChatHistoryStore.NoHitsNoDuplicate | service/chatHistoryStrore.py:39-52 | with no search results the text is not a duplicate |
| ChatHistoryStore.FreshUserNoDuplicate | service/chatHistoryStrore.py:30-52 | a user without conversation records never has a duplicate |
| ChatHistoryStore.ThresholdIsStrict | service/chatHistoryStrore.py:44-45 | similarities equal to the threshold do not make a duplicate |
| ChatHistoryStore.OtherRecordsIrrelevant | service/chatHistoryStrore.py:30-37 | records outside this user's conversations never change the verdict, wherever they sit in the store |
| ChatHistoryStore.SimilarQuestionShortCircuits | service/chatHistoryStrore.py:57-59 | a similar user message refuses the save whatever the bot response's check would say |
| ChatHistoryStore.SavedTurnIsTheUsers | service/chatHistoryStrore.py:64-79 | a saved turn joins this user's conversations, with the same timestamp in metadata and content, and loads back as `{user, bot}` |
| ChatHistoryStore.RepeatedSaveRefused | service/chatHistoryStrore.py:54-63 | once stored, the same user message is refused when the index returns the stored turn and scores it above the threshold |
| ChatHistoryStore.DeleteForgetsUser | service/chatHistoryStrore.py:112-125 | after a delete the user has no conversation records, loads nothing, and has no duplicates |
| LibChatHistoryStore.SaveConversation | lib/chat_history_store.py:23-40 | no duplicate gate: succeeds iff `add_documents` accepts the record, and then appends exactly one turn record of this user, stamped `now`, that loads back as `{user, bot}`; otherwise it raises |
| LibChatHistoryStore.LoadRecentHistory | lib/chat_history_store.py:42-70 | with query "最近的对话": at most `limit` entries, in index order, all from this user's conversations, nothing when the index raises |
| LibChatHistoryStore.RepeatedSaveStoredTwice | lib/chat_history_store.py:23-40 | without a gate, saving the same turn twice stores it twice; other users are untouched |
| Memory.MemoryOf | service/llm.py:59-65 | the get-or-create of `user_memories[user_id]`: an existing memory is reused, a missing one starts empty (definition; lib/llm.py:60-67 and tools_retriever.py:33-41 do the same) |
| Memory.Messages | service/llm.py:93 | a buffer renders as alternating human and AI messages, two per exchange, in order |
| Memory.MessagesAppend | service/llm.py:93 | rendering distributes over concatenated buffers |
| Memory.Window | lib/llm.py:61-65 | the window is the last `min(k, n)` exchanges of the buffer |
| Memory.WindowFits | lib/llm.py:61-65 | the window shows the whole buffer iff it holds at most `k` exchanges |
| Memory.WindowForgetsEvicted | lib/llm.py:95-104 | windowing a full buffer after a save is the same as saving into an evicting window |
| Memory.WindowedMessages | lib/llm.py:95 | the agent sees at most `2k` messages, the last ones of the full buffer's rendering |
| Memory.CompletePrefix | service/llm.py:74-75 | the replay copies entries until the first one lacking "user" or "bot" |
| Memory.Replay | service/llm.py:68-77 | unparsable caller history leaves the memory alone; otherwise the memory becomes the longest complete prefix of the document: its leading entries in order, stopping only at the first entry lacking "user" or "bot", and nothing else |
| Memory.ReplayWellFormed | service/llm.py:68-77 | a well-formed caller history replaces the memory entry for entry |
| ServiceLlm.ProcessCustomerQuestion | service/llm.py:57-108 | only this user's memory changes; the agent sees the prepared memory; an agent failure leaves the store alone; a reply is the agent's output and is remembered; the store changes only by this user's appended turn, never without a user id |
| ServiceLlm.Prepared | service/llm.py:59-90 | every exchange the agent is shown was already in this user's memory, came from the caller's document, or (without caller history) from this user's own stored turns |
| ServiceLlm.CallerHistoryTakesPrecedence | service/llm.py:68-77 | well-formed caller history wins over memory and store |
| ServiceLlm.MissingHistoryKeyEmptiesMemory | service/llm.py:73-74 | a document without "history" empties the memory |
| ServiceLlm.UnparsableCallerHistoryKeepsMemory | service/llm.py:69-77 | caller history that does not parse leaves the memory as it was |
| ServiceLlm.StoreHistoryReplacesMemory | service/llm.py:79-88 | with no caller history and a user id, a non-empty load replaces the memory on every turn |
| ServiceLlm.EmptyLoadKeepsMemory | service/llm.py:81-90 | an empty load, a raising index included, keeps the memory |
| ServiceLlm.AnonymousUsesMemoryAsIs | service/llm.py:59-65 | without caller history or user id the memory is used as is, empty on a first call |
| ServiceLlm.PersistsThroughGatedSave | service/llm.py:99-108 | with a user id the turn goes through the gated save; a raising save fails the call after the memory is updated |
| ServiceLlm.AnonymousTurnNotPersisted | service/llm.py:105-108 | without a user id the reply is returned and nothing is persisted |
| LibLlm.ProcessCustomerQuestion | lib/llm.py:53-110 | the agent sees at most 30 exchanges; a reply is remembered; with a user id the turn is appended to the store, and a raising `add_documents` fails the call after the memory update; without one the output is returned and nothing is stored |
| LibLlm.Prepared | lib/llm.py:60-92 | every exchange the agent is shown was already in this user's memory, came from the caller's document, or (without caller history) from this user's own stored turns |
| LibLlm.Rendered | lib/llm.py:95 | `load_memory_variables` of the window memory: the messages of the last 30 prepared exchanges (definition) |
| LibLlm.CallerHistoryTakesPrecedence | lib/llm.py:69-79 | well-formed caller history becomes the memory entry for entry |
| LibLlm.StoreHistoryReplacesMemory | lib/llm.py:81-92 | a non-empty load replaces the memory, an empty one keeps it |
| LibLlm.ViewAfterTurn | lib/llm.py:94-104 | after a turn the agent's next view fits the window and ends with the new exchange |
| ToolsRetriever.ProcessCustomerQuestion | tools_retriever.py:29-65 | no store: the memory is only replaced by caller history; the reply is remembered and returned |
| ToolsRetriever.Prepared | tools_retriever.py:33-53 | every exchange the agent is shown was already in this user's memory or came from the caller's document; nothing is loaded |
| ToolsRetriever.Rendered | tools_retriever.py:56 | `load_memory_variables` of the window memory: the messages of the last 30 prepared exchanges (definition) |
| ToolsRetriever.Remember | tools_retriever.py:63-65 | `save_context` after the agent answers: this user's memory becomes the prepared memory plus the new exchange, and the output is returned; a raising agent leaves the prepared memory and raises; every other user's memory is unchanged |
| ToolsRetriever.NoCallerHistoryKeepsMemory | tools_retriever.py:41-56 | without caller history the memory is used as it is; nothing is loaded from a store |
| ToolsRetriever.CallerHistoryReplacesMemory | tools_retriever.py:43-53 | parsed caller history replaces the memory, unparsable history keeps it |
| Text.ContainsIffOccurs | service/tools.py:26 | `sub in s` holds iff `sub` occurs at some index of `s` |
| Text.Contains | service/tools.py:26 | Python's `in` on strings, scanning from the left; its meaning is the occurrence statement of `Text.ContainsIffOccurs` |
| Dates.Next | service/tools.py:15 | adding a day gives a valid, later date |
| Dates.Prev | service/tools.py:14 | subtracting a day gives a valid, earlier date |
| Dates.PrevNext | service/tools.py:14-15 | the day before the day after a date is the date |
| Dates.NextPrev | service/tools.py:14-15 | the day after the day before a date is the date |
| Dates.NextIsImmediate | service/tools.py:15 | no date lies strictly between a date and the next one |
| Dates.ParseFormat | service/tools.py:14-15 | `strptime` reads back what `strftime("%Y-%m-%d")` wrote |
| Dates.Format | service/tools.py:14 | `strftime("%Y-%m-%d")` writes ten characters with dashes at positions 4 and 7 |
| Dates.Parse | service/tools.py:14 | `strptime` only yields valid dates, and only from a ten-character string with dashes at positions 4 and 7 |
| Tools.TodayIsCurrentDate | service/tools.py:11-14 | "2025-03-03" parses to 3 March 2025 and formats back unchanged |
| Tools.Yesterday | service/tools.py:14 | `current_date` minus one day, formatted `%Y-%m-%d` (definition; pinned by `Tools.RuleDates`, and also used at service/tools.py:55) |
| Tools.Tomorrow | service/tools.py:15 | `current_date` plus one day, formatted `%Y-%m-%d` (definition; pinned by `Tools.RuleDates`, and also used at service/tools.py:58) |
| Tools.Rules | service/tools.py:12-19 | the `rules` dict: three date keywords and three type keywords with their values (definition; pinned by `Tools.RuleDates` and `Tools.RulesCoverKeywords`) |
| Tools.RuleDates | service/tools.py:12-19 | the rules map 今天, 昨天 and 明天 to 2025-03-03, 2025-03-02 and 2025-03-04 |
| Tools.RulesCoverKeywords | service/tools.py:12-38 | every date keyword has a rule; every type keyword maps to its type, 买 and 包裹 through the "shipment" default |
| Tools.FirstKeyword | service/tools.py:25-40 | the keyword loops pick the first keyword in list order that occurs in the question, or none |
| Tools.DateFields | service/tools.py:22-32 | the date loop: the rule value of the first date keyword that occurs, or no field (definition; pinned by `Tools.ExtractedDate`) |
| Tools.TypeFields | service/tools.py:34-40 | the type loop: the rule value of the first type keyword that occurs, "shipment" for one without a rule, or no field (definition; pinned by `Tools.ExtractedType`) |
| Tools.ExtractJsonFromQuestion | service/tools.py:9-46 | the object only has "date", "type" and "message" keys, and never "error" |
| Tools.ExtractedDate | service/tools.py:22-32 | the date is the value of the first date keyword found, absent when none is |
| Tools.ExtractedType | service/tools.py:34-40 | the type is the value of the first type keyword found, absent when none is |
| Tools.ExtractedMessage | service/tools.py:42-44 | the hint message appears iff the question has no date and no type keyword |
| Tools.DatePriority | service/tools.py:23-32 | 今天 beats 昨天, which beats 明天 |
| Tools.TypeFallback | service/tools.py:36-38 | 购买 is found before 买, and 包裹 falls back to "shipment" |
| Tools.WebSearch | service/tools.py:49-60 | the fixed "no information" answer iff none of the three keyword pairs matches |
| Tools.WebSearchAnswers | service/tools.py:51-59 | the three answers embed 2025-03-03, 2025-03-02 and 2025-03-04, in branch order |
| Tools.XSearch | service/tools.py:63-71 | the post is the one for the first of 订单, 发货, 购买 found, else the fixed answer |
| Prompt.Summarize | service/prompt.py:29-34 | the loop builds the instruction followed by one block per conversation, in order |
| Prompt.Blocks | service/prompt.py:32-33 | the loop body folded over the conversations: one block per conversation, in order (definition; the reference `Prompt.Summarize` is proved against) |
| Prompt.Summary | service/prompt.py:31-34 | the prompt `summarize` returns: the instruction followed by the blocks (definition; pinned by `Prompt.SummaryLength`, `Prompt.BlockPlacement` and `Prompt.SummaryMentionsEveryTurn`) |
| Prompt.Block | service/prompt.py:33 | a block is the user message and the bot reply plus 11 characters of labels and separators |
| Prompt.BlockParts | service/prompt.py:33 | the block is "用户: ", the user message, "\n回复: ", the bot reply and a blank line, in that order |
| Prompt.BlocksAppend | service/prompt.py:32-33 | blocks of a concatenation are the concatenated blocks |
| Prompt.SummaryLength | service/prompt.py:31-33 | the prompt is exactly the instruction, the conversations' own text, and 11 characters of labels and separators per conversation |
| Prompt.BlockPlacement | service/prompt.py:32-33 | the i-th block sits right after the blocks of the earlier conversations |
| Prompt.SummaryMentionsEveryTurn | service/prompt.py:29-34 | every user message and every bot reply appears in the prompt |

## Left out

- `add_documents` is the `Indexer` collaborator: whether it accepts or raises on a
  record is a parameter, not derived from the embedding model.
- Chroma, HuggingFace and Tongyi setup, environment variables, the prompt templates and
  `Tools.get`: configuration, with no logic of the core.
- The agent's reasoning loop (`create_react_agent`, `AgentExecutor`, `max_iterations=3`):
  the agent is a parameter that returns an output or raises.
- `print` output and logging: not observable state.
- Concurrency between requests: each call is modelled as one atomic step over the state.
- The similarity search scores (`similarity_search_with_score`): the scan ignores them.
- The exact text of `json.dumps` in `save_conversation` and `extract_json_from_question`.
  Pages are a structured `Dumped(user, bot, timestamp)`. The tool's object is its list of
  fields in insertion order.
- Which stored records the index returns, and in which order: left to the `Search`
  collaborator. It is assumed to depend only on the filtered records.
- Records.Page: a hand-written document whose raw text happens to be a JSON object with
  "user" and "bot" would load as a turn. The model treats every non-turn document as
  yielding no entry.
- Caller-history values that are not strings (numbers, nested objects under "user" or
  "bot") are not modelled: the memory holds strings only.
- Dates.Format: only years 1000 to 9999 are formatted, the only ones the tools reach.
- Dates.Parse: only the zero-padded `YYYY-MM-DD` form is read. `strptime` also accepts
  unpadded months and days.
- `api.py`, `service/logic.py` and the other callers of the core: outside the core.
- langchain's memory classes are not part of this model. Their behaviour is assumed as
  follows: `save_context` appends one exchange, `clear` empties the buffer, and the
  window memory renders its last `k` exchanges as human/AI message pairs.

=== FILE: chat_history_store.dfy ===
/** The duplicate-gated history store of the service package: a similarity gate over the
    user's stored turns, an all-or-nothing guarded append, the recent-history loader and
    the per-user delete. The store is a sequence of records; every operation returns the
    store it leaves behind. */
module ChatHistoryStore {
  import opened Common
  import opened Records

  const DefaultThreshold: real := 0.8
  const DefaultK: nat := 3
  const DefaultLimit: nat := 10

  /** The query text `load_recent_history` searches with. */
  const HistoryQuery := "abc"

  /** The external collaborators the store calls: the index search, the embedding model
      and the index's `add_documents`. */
  datatype Backend = Backend(search: Search, embedder: Embedder, index: Indexer)

  /** One iteration of the scan: the similarity of `hit` exceeds the threshold strictly.
      A hit whose embedding or cosine raised is skipped, so it never counts. */
  predicate Above(e: Embedder, v: Vector, hit: Record, threshold: real) {
    match e.similarity(v, hit.page)
    case Some(s) => s > threshold
    case None => false
  }

  /** The loop over the search results: stop with true at the first hit above the
      threshold, skip failing hits, false when the results run out. */
  function ScanHits(e: Embedder, v: Vector, hits: seq<Record>, threshold: real): (found: bool)
    ensures found <==> exists i :: 0 <= i < |hits| && Above(e, v, hits[i], threshold)
  {
    if |hits| == 0 then false
    else if Above(e, v, hits[0], threshold) then true
    else ScanHits(e, v, hits[1..], threshold)
  }

  /** `check_similarity`: embed the text (raising propagates), search the user's
      conversation records for `k` neighbours (raising propagates), scan them. */
  function CheckSimilarity(b: Backend, store: seq<Record>, user: string, text: string, threshold: real, k: nat): (r: Result<bool>)
    ensures b.embedder.embed(text).None? ==> r == Err(EmbeddingFailed)
    ensures b.embedder.embed(text).Some? && b.search(text, Conversations(store, user), k).None? ==> r == Err(SearchFailed)
    ensures r.Ok? <==> b.embedder.embed(text).Some? && b.search(text, Conversations(store, user), k).Some?
    ensures forall v, hits :: b.embedder.embed(text) == Some(v) && b.search(text, Conversations(store, user), k) == Some(hits) ==>
              (r == Ok(true) <==> exists i :: 0 <= i < |hits| && Above(b.embedder, v, hits[i], threshold))
    ensures r == Ok(true) ==>
              exists h :: h in store && IsConversationOf(h, user) && Above(b.embedder, b.embedder.embed(text).value, h, threshold)
  {
    GateOn(b, Conversations(store, user), text, threshold, k)
  }

  /** The gate once the filter has been applied: it sees only the candidate records. */
  function GateOn(b: Backend, candidates: seq<Record>, text: string, threshold: real, k: nat): (r: Result<bool>)
    ensures r == Ok(true) ==> b.embedder.embed(text).Some?
    ensures r == Ok(true) ==>
              exists h :: h in candidates && Above(b.embedder, b.embedder.embed(text).value, h, threshold)
  {
    match b.embedder.embed(text)
    case None => Err(EmbeddingFailed)
    case Some(v) =>
      match b.search(text, candidates, k)
      case None => Err(SearchFailed)
      case Some(hits) =>
        if ScanHits(b.embedder, v, hits, threshold) then
          var i :| 0 <= i < |hits| && Above(b.embedder, v, hits[i], threshold);
          assert hits[i] in candidates;
          Ok(true)
        else Ok(false)
  }

  /** `check_similarity` with its default threshold and `k`, as `save_conversation` calls it. */
  function Similar(b: Backend, store: seq<Record>, user: string, text: string): Result<bool> {
    CheckSimilarity(b, store, user, text, DefaultThreshold, DefaultK)
  }

  /** `save_conversation`: refuse when the user message is similar, then when the bot
      response is similar; otherwise add one turn record stamped `now`. A raising check
      or `add_documents` makes the save raise. */
  function SaveConversation(b: Backend, store: seq<Record>, user: string, userMessage: string, botResponse: string, now: string): (r: Result<Write>)
    ensures Similar(b, store, user, userMessage) == Ok(true) ==> r == Ok(Write(false, store))
    ensures Similar(b, store, user, userMessage).Err? ==> r == Err(Similar(b, store, user, userMessage).error)
    ensures Similar(b, store, user, userMessage) == Ok(false) && Similar(b, store, user, botResponse).Err? ==>
              r == Err(Similar(b, store, user, botResponse).error)
    ensures Similar(b, store, user, userMessage) == Ok(false) && Similar(b, store, user, botResponse) == Ok(true) ==>
              r == Ok(Write(false, store))
    ensures (Similar(b, store, user, userMessage) == Ok(false) && Similar(b, store, user, botResponse) == Ok(false) &&
             !b.index(TurnRecord(user, userMessage, botResponse, now))) ==> r == Err(WriteFailed)
    ensures r.Ok? && r.value.ok <==>
              Similar(b, store, user, userMessage) == Ok(false) && Similar(b, store, user, botResponse) == Ok(false) &&
              b.index(TurnRecord(user, userMessage, botResponse, now))
    ensures r.Ok? && !r.value.ok ==> r.value.store == store
    ensures r.Ok? && r.value.ok ==> r.value.store == store + [TurnRecord(user, userMessage, botResponse, now)]
    ensures r.Err? ==> Similar(b, store, user, userMessage).Err? || Similar(b, store, user, botResponse).Err? ||
                       r == Err(WriteFailed)
  {
    match Similar(b, store, user, userMessage)
    case Err(e) => Err(e)
    case Ok(true) => Ok(Write(false, store))
    case Ok(false) =>
      match Similar(b, store, user, botResponse)
      case Err(e) => Err(e)
      case Ok(true) => Ok(Write(false, store))
      case Ok(false) =>
        var rec := TurnRecord(user, userMessage, botResponse, now);
        if b.index(rec) then Ok(Write(true, store + [rec])) else Err(WriteFailed)
  }

  /** `load_recent_history`: at most `limit` entries, each from one of this user's
      conversation records, in the order the index returned them (the timestamp sort
      does not reorder), and nothing when the index raised. */
  function LoadRecentHistory(b: Backend, store: seq<Record>, user: string, limit: nat): (r: seq<Exchange>)
    ensures |r| <= limit
    ensures b.search(HistoryQuery, Conversations(store, user), limit).None? ==> r == []
    ensures forall hits :: b.search(HistoryQuery, Conversations(store, user), limit) == Some(hits) ==> r == Entries(hits)
    ensures forall e :: e in r ==> exists d :: d in store && IsConversationOf(d, user) && EntryOf(d) == Some(e)
  {
    LoadHistory(b.search, store, user, HistoryQuery, limit)
  }

  /** `delete_user_history`: `reachable` is false when the index raises, in which case
      nothing is deleted and false is returned. */
  function DeleteUserHistory(store: seq<Record>, user: string, reachable: bool): (r: Write)
    ensures r.ok == reachable
    ensures !reachable ==> r.store == store
    ensures reachable ==> forall x :: x in r.store <==> x in store && !IsConversationOf(x, user)
    ensures reachable ==> |r.store| == |store| - |Conversations(store, user)|
    ensures reachable ==> multiset(r.store) + multiset(Conversations(store, user)) == multiset(store)
  {
    if reachable then Write(true, Remove(store, user)) else Write(false, store)
  }

  /** The records the delete filter does not match, in store order: every unmatched
      record survives with all its copies, and only the matched ones go. */
  function Remove(store: seq<Record>, user: string): (r: seq<Record>)
    ensures forall x :: x in r <==> x in store && !IsConversationOf(x, user)
    ensures |r| == |store| - |Conversations(store, user)|
    ensures multiset(r) + multiset(Conversations(store, user)) == multiset(store)
  {
    if |store| == 0 then []
    else
      assert store == [store[0]] + store[1..];
      (if IsConversationOf(store[0], user) then [] else [store[0]]) + Remove(store[1..], user)
  }

  /** Deleting one user's history leaves every other user's conversation records exactly
      as they were, in order. */
  lemma {:induction false} DeleteKeepsOtherUsers(store: seq<Record>, user: string, other: string)
    requires other != user
    ensures Conversations(DeleteUserHistory(store, user, true).store, other) == Conversations(store, other)
    decreases |store|
  {
    if |store| > 0 {
      DeleteKeepsOtherUsers(store[1..], user, other);
      var head := if IsConversationOf(store[0], user) then [] else [store[0]];
      ConversationsAppend(head, Remove(store[1..], user), other);
    }
  }

  /** A hit whose similarity raises is skipped, not raised: with embedding and search
      working, the verdict is false exactly when no returned hit scores above the
      threshold, even if every hit fails. */
  lemma {:induction false} FailingHitsSkipped(b: Backend, store: seq<Record>, user: string, text: string, threshold: real, k: nat, v: Vector, hits: seq<Record>)
    requires b.embedder.embed(text) == Some(v)
    requires b.search(text, Conversations(store, user), k) == Some(hits)
    requires forall i :: 0 <= i < |hits| ==> b.embedder.similarity(v, hits[i].page).None?
    ensures CheckSimilarity(b, store, user, text, threshold, k) == Ok(false)
  {
    var r := CheckSimilarity(b, store, user, text, threshold, k);
    assert r.Ok?;
    assert !exists i :: 0 <= i < |hits| && Above(b.embedder, v, hits[i], threshold);
  }

  /** With no search results the text is never a duplicate. */
  lemma NoHitsNoDuplicate(b: Backend, store: seq<Record>, user: string, text: string, threshold: real, k: nat)
    requires b.embedder.embed(text).Some?
    requires b.search(text, Conversations(store, user), k) == Some([])
    ensures CheckSimilarity(b, store, user, text, threshold, k) == Ok(false)
  {
  }

  /** A user without conversation records never has a duplicate, whatever the index does. */
  lemma {:induction false} FreshUserNoDuplicate(b: Backend, store: seq<Record>, user: string, text: string, threshold: real, k: nat)
    requires Conversations(store, user) == []
    ensures CheckSimilarity(b, store, user, text, threshold, k) != Ok(true)
  {
  }

  /** The comparison is strict: hits whose similarity is exactly the threshold (or below)
      do not make the text a duplicate. */
  lemma {:induction false} ThresholdIsStrict(b: Backend, store: seq<Record>, user: string, text: string, threshold: real, k: nat, v: Vector)
    requires b.embedder.embed(text) == Some(v)
    requires b.search(text, Conversations(store, user), k).Some?
    requires forall h :: h in store && IsConversationOf(h, user) ==>
               b.embedder.similarity(v, h.page).None? || b.embedder.similarity(v, h.page).value <= threshold
    ensures CheckSimilarity(b, store, user, text, threshold, k) == Ok(false)
  {
  }

  /** Records that do not pass this user's filter (other users, other types, documents
      without metadata) never change the verdict, wherever they sit in the store. */
  lemma {:induction false} OtherRecordsIrrelevant(b: Backend, front: seq<Record>, others: seq<Record>, back: seq<Record>,
                                                  user: string, text: string, threshold: real, k: nat)
    requires forall x :: x in others ==> !IsConversationOf(x, user)
    ensures CheckSimilarity(b, front + others + back, user, text, threshold, k) == CheckSimilarity(b, front + back, user, text, threshold, k)
  {
    ConversationsAppend(front + others, back, user);
    ConversationsAppend(front, others, user);
    ConversationsAppend(front, back, user);
    NoConversations(others, user);
    assert Conversations(front + others + back, user) == Conversations(front + back, user);
  }

  /** Saving a turn whose user message is already similar changes nothing, and the bot
      response is never checked: the result is the same whatever its check would say. */
  lemma SimilarQuestionShortCircuits(b: Backend, b': Backend, store: seq<Record>, user: string, userMessage: string, botResponse: string, now: string)
    ensures Similar(b, store, user, userMessage) == Ok(true) && Similar(b', store, user, userMessage) == Ok(true) ==>
              && SaveConversation(b, store, user, userMessage, botResponse, now) == Ok(Write(false, store))
              && SaveConversation(b, store, user, userMessage, botResponse, now) == SaveConversation(b', store, user, userMessage, botResponse, now)
  {
  }

  /** A successful save puts the new turn among the user's conversation records: it is
      found by the next filtered search, carries the user's id, the conversation type and
      one timestamp in both content and metadata, and loads back as `{user, bot}`. */
  lemma {:induction false} SavedTurnIsTheUsers(b: Backend, store: seq<Record>, user: string, userMessage: string, botResponse: string, now: string)
    requires SaveConversation(b, store, user, userMessage, botResponse, now).Ok?
    requires SaveConversation(b, store, user, userMessage, botResponse, now).value.ok
    ensures var s' := SaveConversation(b, store, user, userMessage, botResponse, now).value.store;
            var rec := s'[|s'| - 1];
            && Conversations(s', user) == Conversations(store, user) + [rec]
            && rec.metadata == Metadata(Some(user), Some(Conversation), Some(now))
            && rec.page.Dumped? && rec.page.timestamp == now
            && EntryOf(rec) == Some(Exchange(userMessage, botResponse))
  {
    var rec := TurnRecord(user, userMessage, botResponse, now);
    ConversationsSnoc(store, rec, user);
  }

  /** Duplicate suppression on a repeated save: once a turn is stored, saving the same
      user message again is refused and leaves the store alone, provided the index
      retrieves the stored turn and the model scores the message above the threshold
      against it. */
  lemma {:induction false} RepeatedSaveRefused(b: Backend, store: seq<Record>, user: string, userMessage: string, botResponse: string,
                                              now: string, later: string)
    ensures var rec := TurnRecord(user, userMessage, botResponse, now);
            var s' := store + [rec];
            var hits := b.search(userMessage, Conversations(s', user), DefaultK);
            b.embedder.embed(userMessage).Some? && hits.Some? && rec in hits.value &&
            Above(b.embedder, b.embedder.embed(userMessage).value, rec, DefaultThreshold) ==>
              SaveConversation(b, s', user, userMessage, botResponse, later) == Ok(Write(false, s'))
  {
    var rec := TurnRecord(user, userMessage, botResponse, now);
    var s' := store + [rec];
    var answer := b.search(userMessage, Conversations(s', user), DefaultK);
    if b.embedder.embed(userMessage).Some? && answer.Some? && rec in answer.value {
      var v := b.embedder.embed(userMessage).value;
      if Above(b.embedder, v, rec, DefaultThreshold) {
        var i :| 0 <= i < |answer.value| && answer.value[i] == rec;
        assert Above(b.embedder, v, answer.value[i], DefaultThreshold);
      }
    }
  }

  /** After a successful delete nothing of the user's history loads back and nothing
      they say is a duplicate any more. */
  lemma {:induction false} DeleteForgetsUser(b: Backend, store: seq<Record>, user: string, text: string, threshold: real, k: nat, limit: nat)
    ensures var s' := DeleteUserHistory(store, user, true).store;
            && Conversations(s', user) == []
            && LoadRecentHistory(b, s', user, limit) == []
            && CheckSimilarity(b, s', user, text, threshold, k) != Ok(true)
  {
    var s' := DeleteUserHistory(store, user, true).store;
    NoConversations(s', user);
    FreshUserNoDuplicate(b, s', user, text, threshold, k);
    NothingToLoad(b.search, s', user, HistoryQuery, limit);
  }
}

=== FILE: common.dfy ===
/** Vocabulary shared by every part of the conversation-memory model. */
module Common {

  /** The conventional Some/None datatype. */
  datatype Option<+T> = None | Some(value: T)

  /** Why a call raised instead of returning a value. */
  datatype Failure =
    | EmbeddingFailed  // the embedding model raised on the query text
    | SearchFailed     // the vector index raised while searching
    | WriteFailed      // the vector index raised while adding a document
    | AgentFailed      // the agent executor raised

  /** A call that either returns a value or raises one of the failures above. */
  datatype Result<+T> = Ok(value: T) | Err(error: Failure)

  /** One turn of a conversation as the history code handles it: the `{"user", "bot"}`
      entries of loaded and caller-supplied histories, and one saved context of a memory. */
  datatype Exchange = Exchange(user: string, bot: string)

  /** Python truthiness of an optional string: `None` and `""` are both falsy. */
  predicate Truthy(s: Option<string>) {
    s.Some? && s.value != ""
  }
}

=== FILE: dates.dfy ===
/** The calendar arithmetic the keyword tools use: `datetime.strptime(s, "%Y-%m-%d")`,
    adding or subtracting `timedelta(days=1)`, and `strftime("%Y-%m-%d")`, on proleptic
    Gregorian dates between year 1 and year 9999. */
module Dates {
  import opened Common

  datatype Date = Date(year: int, month: int, day: int)

  predicate IsLeap(y: int) {
    y % 4 == 0 && (y % 100 != 0 || y % 400 == 0)
  }

  function DaysIn(y: int, m: int): int
    requires 1 <= m <= 12
  {
    if m == 2 then (if IsLeap(y) then 29 else 28)
    else if m == 4 || m == 6 || m == 9 || m == 11 then 30
    else 31
  }

  /** A date `datetime` can represent. */
  predicate Valid(d: Date) {
    1 <= d.year <= 9999 && 1 <= d.month <= 12 && 1 <= d.day <= DaysIn(d.year, d.month)
  }

  const MinDate := Date(1, 1, 1)
  const MaxDate := Date(9999, 12, 31)

  /** Chronological order. */
  predicate Before(a: Date, b: Date) {
    a.year < b.year || (a.year == b.year && (a.month < b.month || (a.month == b.month && a.day < b.day)))
  }

  /** `d + timedelta(days=1)`; past the last representable date `datetime` raises. */
  function Next(d: Date): (r: Date)
    requires Valid(d) && d != MaxDate
    ensures Valid(r) && Before(d, r)
  {
    if d.day < DaysIn(d.year, d.month) then Date(d.year, d.month, d.day + 1)
    else if d.month < 12 then Date(d.year, d.month + 1, 1)
    else Date(d.year + 1, 1, 1)
  }

  /** `d - timedelta(days=1)`; before the first representable date `datetime` raises. */
  function Prev(d: Date): (r: Date)
    requires Valid(d) && d != MinDate
    ensures Valid(r) && Before(r, d)
  {
    if d.day > 1 then Date(d.year, d.month, d.day - 1)
    else if d.month > 1 then Date(d.year, d.month - 1, DaysIn(d.year, d.month - 1))
    else Date(d.year - 1, 12, 31)
  }

  /** The day after the day before is the day itself, and the other way round. */
  lemma PrevNext(d: Date)
    requires Valid(d) && d != MaxDate
    ensures Next(d) != MinDate && Prev(Next(d)) == d
  {
  }

  lemma NextPrev(d: Date)
    requires Valid(d) && d != MinDate
    ensures Prev(d) != MaxDate && Next(Prev(d)) == d
  {
  }

  /** No date lies strictly between a date and the next one. */
  lemma NextIsImmediate(d: Date, e: Date)
    requires Valid(d) && d != MaxDate && Valid(e)
    ensures !(Before(d, e) && Before(e, Next(d)))
  {
  }

  function Digit(n: int): char
    requires 0 <= n < 10
  {
    (48 + n) as char
  }

  predicate IsDigit(c: char) {
    '0' <= c <= '9'
  }

  function DigitValue(c: char): int {
    c as int - 48
  }

  /** The decimal number written by a string of digits. */
  function Number(s: string): int
    requires forall i :: 0 <= i < |s| ==> IsDigit(s[i])
  {
    if |s| == 0 then 0 else 10 * Number(s[..|s| - 1]) + DigitValue(s[|s| - 1])
  }

  function Pad2(n: int): (r: string)
    requires 0 <= n < 100
    ensures |r| == 2 && forall i :: 0 <= i < 2 ==> IsDigit(r[i])
  {
    [Digit(n / 10), Digit(n % 10)]
  }

  function Pad4(n: int): (r: string)
    requires 0 <= n < 10000
    ensures |r| == 4 && forall i :: 0 <= i < 4 ==> IsDigit(r[i])
  {
    [Digit(n / 1000), Digit(n / 100 % 10), Digit(n / 10 % 10), Digit(n % 10)]
  }

  /** `strftime("%Y-%m-%d")` for four-digit years. */
  function Format(d: Date): (r: string)
    requires Valid(d) && d.year >= 1000
    ensures |r| == 10 && r[4] == '-' && r[7] == '-'
  {
    Pad4(d.year) + "-" + Pad2(d.month) + "-" + Pad2(d.day)
  }

  /** `strptime(s, "%Y-%m-%d")` on the zero-padded form `strftime` writes; None where
      `strptime` would raise or the form is not the padded one. */
  function Parse(s: string): (r: Option<Date>)
    ensures r.Some? ==> Valid(r.value) && |s| == 10 && s[4] == '-' && s[7] == '-'
  {
    if |s| == 10 && s[4] == '-' && s[7] == '-'
       && (forall i :: 0 <= i < 10 && i != 4 && i != 7 ==> IsDigit(s[i]))
    then
      var d := Date(Number(s[..4]), Number(s[5..7]), Number(s[8..]));
      if Valid(d) then Some(d) else None
    else None
  }

  lemma NumberPad2(n: int)
    requires 0 <= n < 100
    ensures Number(Pad2(n)) == n
  {
    var p := Pad2(n);
    assert p[..1] == [Digit(n / 10)];
    assert Number(p[..1][..0]) == 0;
  }

  lemma NumberPad4(n: int)
    requires 0 <= n < 10000
    ensures Number(Pad4(n)) == n
  {
    var p := Pad4(n);
    assert p[..3][..2][..1][..0] == [];
    assert Number(p[..3][..2][..1]) == n / 1000;
    assert Number(p[..3][..2]) == n / 100;
    assert Number(p[..3]) == n / 10;
  }

  /** Reading back what `strftime` wrote gives the date again. */
  lemma ParseFormat(d: Date)
    requires Valid(d) && d.year >= 1000
    ensures Parse(Format(d)) == Some(d)
  {
    var s := Format(d);
    assert s[..4] == Pad4(d.year);
    assert s[5..7] == Pad2(d.month);
    assert s[8..] == Pad2(d.day);
    NumberPad4(d.year);
    NumberPad2(d.month);
    NumberPad2(d.day);
  }
}

=== FILE: lib_chat_history_store.dfy ===
/** The older history store of the lib package: the same records and loader as the
    service store, but `save_conversation` appends without any duplicate gate. */
module LibChatHistoryStore {
  import opened Common
  import opened Records

  const DefaultLimit: nat := 10

  /** The query text this store's `load_recent_history` searches with. */
  const HistoryQuery := "最近的对话"

  /** `save_conversation`: no duplicate gate. It adds exactly one turn record stamped
      `now` and reports success, unless `add_documents` raises, which makes the save
      raise with the store unchanged. */
  function SaveConversation(index: Indexer, store: seq<Record>, user: string, userMessage: string, botResponse: string, now: string): (r: Result<Write>)
    ensures r.Ok? <==> index(TurnRecord(user, userMessage, botResponse, now))
    ensures r.Err? ==> r.error == WriteFailed
    ensures r.Ok? ==> r.value.ok && |r.value.store| == |store| + 1 && r.value.store[..|store|] == store
    ensures r.Ok? ==> var rec := r.value.store[|store|];
            && IsConversationOf(rec, user)
            && rec.metadata.timestamp == Some(now)
            && rec.page == Dumped(userMessage, botResponse, now)
            && EntryOf(rec) == Some(Exchange(userMessage, botResponse))
  {
    var rec := TurnRecord(user, userMessage, botResponse, now);
    if index(rec) then Ok(Write(true, store + [rec])) else Err(WriteFailed)
  }

  /** `load_recent_history`: at most `limit` entries, each from one of this user's
      conversation records, in the order the index returned them, and nothing when
      the index raised. */
  function LoadRecentHistory(search: Search, store: seq<Record>, user: string, limit: nat): (r: seq<Exchange>)
    ensures |r| <= limit
    ensures search(HistoryQuery, Conversations(store, user), limit).None? ==> r == []
    ensures forall hits :: search(HistoryQuery, Conversations(store, user), limit) == Some(hits) ==> r == Entries(hits)
    ensures forall e :: e in r ==> exists d :: d in store && IsConversationOf(d, user) && EntryOf(d) == Some(e)
  {
    LoadHistory(search, store, user, HistoryQuery, limit)
  }

  /** Without a gate, saving the same turn twice stores it twice: each accepted save adds
      one record to the user's conversations and leaves other users' untouched. */
  lemma {:induction false} RepeatedSaveStoredTwice(index: Indexer, store: seq<Record>, user: string, other: string,
                                                  userMessage: string, botResponse: string, now: string, later: string)
    requires other != user
    requires index(TurnRecord(user, userMessage, botResponse, now)) && index(TurnRecord(user, userMessage, botResponse, later))
    ensures var s1 := SaveConversation(index, store, user, userMessage, botResponse, now).value.store;
            var s2 := SaveConversation(index, s1, user, userMessage, botResponse, later).value.store;
            && Conversations(s2, user) == Conversations(store, user) + [TurnRecord(user, userMessage, botResponse, now),
                                                                         TurnRecord(user, userMessage, botResponse, later)]
            && Conversations(s2, other) == Conversations(store, other)
  {
    var r1 := TurnRecord(user, userMessage, botResponse, now);
    var r2 := TurnRecord(user, userMessage, botResponse, later);
    assert SaveConversation(index, store, user, userMessage, botResponse, now) == Ok(Write(true, store + [r1]));
    assert SaveConversation(index, store + [r1], user, userMessage, botResponse, later) == Ok(Write(true, store + [r1] + [r2]));
    ConversationsSnoc(store, r1, user);
    ConversationsSnoc(store + [r1], r2, user);
    ConversationsSnoc(store, r1, other);
    ConversationsSnoc(store + [r1], r2, other);
  }
}

=== FILE: lib_llm.dfy ===
/** `process_customer_question` of the lib package: the same reconciliation as the
    service package, but the agent sees a window of the 30 most recent exchanges and the
    turn is saved through the ungated lib store. */
module LibLlm {
  import opened Common
  import opened Records
  import opened Memory
  import Store = LibChatHistoryStore

  /** The collaborators of one call: the agent, `json.loads` of the caller's history,
      the store's index search and `add_documents`, and the clock reading used as
      timestamp. */
  datatype Env = Env(agent: Agent, decode: string -> CallerJson, search: Search, index: Indexer, now: string)

  datatype State = State(memories: Memories, store: seq<Record>)

  datatype Turn = Turn(state: State, reply: Result<string>)

  /** The memory as it stands when the agent is invoked: caller history first, then a
      non-empty store load for a truthy user id, else the memory as it is. */
  function Prepared(env: Env, st: State, userId: Option<string>, chatHistory: Option<string>): (r: seq<Exchange>)
    // every exchange the agent sees was already in this user's memory, came from the
    // caller's document, or (without caller history) from this user's stored turns
    ensures forall e :: e in r ==>
              || e in MemoryOf(st.memories, userId)
              || (Truthy(chatHistory) && FromDocument(env.decode(chatHistory.value), e))
              || (!Truthy(chatHistory) && Truthy(userId) &&
                  exists d :: d in st.store && IsConversationOf(d, userId.value) && EntryOf(d) == Some(e))
  {
    var mem := MemoryOf(st.memories, userId);
    if Truthy(chatHistory) then Replay(mem, env.decode(chatHistory.value))
    else if Truthy(userId) then
      var loaded := Store.LoadRecentHistory(env.search, st.store, userId.value, Store.DefaultLimit);
      if |loaded| > 0 then loaded else mem
    else mem
  }

  /** What the window memory hands the agent. */
  function Rendered(env: Env, st: State, userId: Option<string>, chatHistory: Option<string>): seq<Message> {
    Messages(Window(Prepared(env, st, userId, chatHistory), WindowSize))
  }

  function ProcessCustomerQuestion(env: Env, st: State, question: string, userId: Option<string>, chatHistory: Option<string>): (t: Turn)
    // only this user's memory is created or changed
    ensures t.state.memories.Keys == st.memories.Keys + {userId}
    ensures forall key :: key in st.memories && key != userId ==> t.state.memories[key] == st.memories[key]
    // the agent sees at most the 30 most recent exchanges of the prepared memory
    ensures |Rendered(env, st, userId, chatHistory)| <= 2 * WindowSize
    ensures env.agent(question, Rendered(env, st, userId, chatHistory)).None? ==>
              t.reply == Err(AgentFailed) && t.state.store == st.store &&
              t.state.memories[userId] == Prepared(env, st, userId, chatHistory)
    // a successful agent call is remembered, and saved when there is a user id; the
    // output is returned unless `add_documents` raises, which fails the call
    ensures forall out :: env.agent(question, Rendered(env, st, userId, chatHistory)) == Some(out) ==>
              && t.state.memories[userId] == Prepared(env, st, userId, chatHistory) + [Exchange(question, out)]
              && (Truthy(userId) && env.index(TurnRecord(userId.value, question, out, env.now)) ==>
                    t.reply == Ok(out) && t.state.store == st.store + [TurnRecord(userId.value, question, out, env.now)])
              && (Truthy(userId) && !env.index(TurnRecord(userId.value, question, out, env.now)) ==>
                    t.reply == Err(WriteFailed) && t.state.store == st.store)
              && (!Truthy(userId) ==> t.reply == Ok(out) && t.state.store == st.store)
  {
    var mem := Prepared(env, st, userId, chatHistory);
    WindowedMessages(mem, WindowSize);
    match env.agent(question, Rendered(env, st, userId, chatHistory))
    case None => Turn(State(st.memories[userId := mem], st.store), Err(AgentFailed))
    case Some(out) =>
      var memories := st.memories[userId := mem + [Exchange(question, out)]];
      if Truthy(userId) then
        match Store.SaveConversation(env.index, st.store, userId.value, question, out, env.now)
        case Err(e) => Turn(State(memories, st.store), Err(e))
        case Ok(w) => Turn(State(memories, w.store), Ok(out))
      else Turn(State(memories, st.store), Ok(out))
  }

  /** Caller history that parses to a well-formed document wins over memory and store:
      the memory becomes exactly its entries, in the order supplied. */
  lemma {:induction false} CallerHistoryTakesPrecedence(env: Env, st: State, userId: Option<string>, chatHistory: Option<string>, es: seq<Entry>)
    requires Truthy(chatHistory) && env.decode(chatHistory.value) == Document(Some(es))
    requires forall i :: 0 <= i < |es| ==> Complete(es[i])
    ensures |Prepared(env, st, userId, chatHistory)| == |es|
    ensures forall i :: 0 <= i < |es| ==> Prepared(env, st, userId, chatHistory)[i] == Exchange(es[i].user.value, es[i].bot.value)
  {
    ReplayWellFormed(MemoryOf(st.memories, userId), es);
  }

  /** With no caller history and a user id, a non-empty load replaces the memory in the
      order returned; a load that came back empty (the index raising included) leaves it. */
  lemma StoreHistoryReplacesMemory(env: Env, st: State, userId: Option<string>, chatHistory: Option<string>)
    requires !Truthy(chatHistory) && Truthy(userId)
    ensures var loaded := Store.LoadRecentHistory(env.search, st.store, userId.value, Store.DefaultLimit);
            Prepared(env, st, userId, chatHistory) == if loaded != [] then loaded else MemoryOf(st.memories, userId)
  {
  }

  /** Over many turns the agent's view never exceeds the window, and it always holds the
      most recent exchanges: after a turn the view ends with the new exchange. */
  lemma {:induction false} ViewAfterTurn(env: Env, st: State, question: string, userId: Option<string>, chatHistory: Option<string>, out: string)
    requires env.agent(question, Rendered(env, st, userId, chatHistory)) == Some(out)
    ensures var m := ProcessCustomerQuestion(env, st, question, userId, chatHistory).state.memories[userId];
            && |Window(m, WindowSize)| <= WindowSize
            && Window(m, WindowSize)[|Window(m, WindowSize)| - 1] == Exchange(question, out)
            && Window(m, WindowSize) == Window(Window(Prepared(env, st, userId, chatHistory), WindowSize) + [Exchange(question, out)], WindowSize)
  {
    WindowForgetsEvicted(Prepared(env, st, userId, chatHistory), Exchange(question, out), WindowSize);
  }
}

=== FILE: memory.dfy ===
/** The per-user conversation memory of the chat code: a buffer of exchanges (unbounded in
    the service package, shown through a window of the last `k` exchanges in the lib
    package and the retriever script), the mapping from user id to memory, and the replay
    of a caller-supplied JSON history into a memory. */
module Memory {
  import opened Common

  /** The window of `ConversationBufferWindowMemory(k=30)`. */
  const WindowSize: nat := 30

  /** A chat message as the memory hands it to the agent (`return_messages=True`). */
  datatype Message = Human(text: string) | Ai(text: string)

  /** The agent executor: question and rendered history in, the response's "output"
      out, or None when it raises. */
  type Agent = (string, seq<Message>) -> Option<string>

  /** The per-user memories, keyed by the optional user id: every call without a user id
      shares the memory stored under `None`. */
  type Memories = map<Option<string>, seq<Exchange>>

  /** The messages a buffer renders: each saved context becomes the human input
      followed by the AI output. */
  function Messages(m: seq<Exchange>): (r: seq<Message>)
    ensures |r| == 2 * |m|
    ensures forall i :: 0 <= i < |m| ==> r[2 * i] == Human(m[i].user) && r[2 * i + 1] == Ai(m[i].bot)
  {
    if |m| == 0 then [] else [Human(m[0].user), Ai(m[0].bot)] + Messages(m[1..])
  }

  /** The view of a window memory: the `k` most recent exchanges. */
  function Window(m: seq<Exchange>, k: nat): (r: seq<Exchange>)
    ensures |r| == if |m| <= k then |m| else k
    ensures r == m[|m| - |r|..]
  {
    if |m| <= k then m else m[|m| - k..]
  }

  /** The window keeps the buffer's whole contents only while they fit. */
  lemma WindowFits(m: seq<Exchange>, k: nat)
    ensures Window(m, k) == m <==> |m| <= k
  {
  }

  /** Whether the stored buffer keeps old exchanges or evicts them, the window shows the
      same thing after every further save: keeping the full buffer and windowing the view
      is indistinguishable from a buffer that drops its oldest exchanges. */
  lemma {:induction false} WindowForgetsEvicted(m: seq<Exchange>, x: Exchange, k: nat)
    ensures Window(Window(m, k) + [x], k) == Window(m + [x], k)
  {
    var w := Window(m, k);
    if |m| + 1 > k {
      if |m| <= k {
        assert w == m;
      } else {
        assert (w + [x])[|w + [x]| - k..] == (m + [x])[|m + [x]| - k..];
      }
    }
  }

  /** Rendering a window shows at most `2k` messages, the last ones of the full buffer. */
  lemma {:induction false} WindowedMessages(m: seq<Exchange>, k: nat)
    ensures |Messages(Window(m, k))| <= 2 * k
    ensures Messages(Window(m, k)) == Messages(m)[|Messages(m)| - |Messages(Window(m, k))|..]
  {
    var w := Window(m, k);
    var d := |m| - |w|;
    MessagesAppend(m[..d], w);
    assert m == m[..d] + w;
  }

  lemma {:induction false} MessagesAppend(a: seq<Exchange>, b: seq<Exchange>)
    ensures Messages(a + b) == Messages(a) + Messages(b)
    decreases |a|
  {
    if |a| == 0 {
      assert a + b == b;
    } else {
      assert (a + b)[1..] == a[1..] + b;
      MessagesAppend(a[1..], b);
    }
  }

  /** `user_memories[user_id]` after the get-or-create step: an existing memory is
      reused, a missing one starts empty. */
  function MemoryOf(ms: Memories, key: Option<string>): seq<Exchange> {
    if key in ms then ms[key] else []
  }

  /** One element of the caller's `history` list; a key the element lacks is `None`. An
      element that is not an object raises at the same point as one lacking both keys,
      so it is `Entry(None, None)`. */
  datatype Entry = Entry(user: Option<string>, bot: Option<string>)

  /** What `json.loads` makes of a caller-supplied history text, as far as the replay
      looks at it. */
  datatype CallerJson =
    | Unparsable                          // json.loads raises, before the memory is cleared
    | Unusable                            // parses, but `.get("history", [])` or iterating it raises, after the clear
    | Document(history: Option<seq<Entry>>)  // an object, with or without a "history" list

  predicate Complete(e: Entry) {
    e.user.Some? && e.bot.Some?
  }

  /** The exchanges replayed before the first entry lacking "user" or "bot", where the
      `KeyError` ends the loop. */
  function CompletePrefix(es: seq<Entry>): (r: seq<Exchange>)
    ensures |r| <= |es|
    ensures forall i :: 0 <= i < |r| ==> es[i] == Entry(Some(r[i].user), Some(r[i].bot))
    ensures |r| < |es| ==> !Complete(es[|r|])
  {
    if |es| == 0 || !Complete(es[0]) then []
    else [Exchange(es[0].user.value, es[0].bot.value)] + CompletePrefix(es[1..])
  }

  /** `e` is one of the complete entries of the caller's document. */
  predicate FromDocument(doc: CallerJson, e: Exchange) {
    doc.Document? && doc.history.Some? && Entry(Some(e.user), Some(e.bot)) in doc.history.value
  }

  /** The caller-history branch: parse, clear, replay. A text that does not parse leaves
      the memory alone; anything that raises after the clear leaves what was replayed so
      far: the longest complete prefix of the document, in order. */
  function Replay(mem: seq<Exchange>, doc: CallerJson): (r: seq<Exchange>)
    ensures doc.Unparsable? ==> r == mem
    ensures !doc.Unparsable? ==>
              forall i :: 0 <= i < |r| ==>
                doc.Document? && doc.history.Some? && i < |doc.history.value| &&
                doc.history.value[i] == Entry(Some(r[i].user), Some(r[i].bot))
    ensures !doc.Unparsable? ==> forall e :: e in r ==> FromDocument(doc, e)
    ensures doc.Document? && doc.history.Some? && |r| < |doc.history.value| ==> !Complete(doc.history.value[|r|])
  {
    match doc
    case Unparsable => mem
    case Unusable => []
    case Document(None) => []
    case Document(Some(es)) =>
      var r := CompletePrefix(es);
      assert forall i :: 0 <= i < |r| ==> es[i] in es;
      r
  }

  /** A well-formed caller history becomes the memory, entry for entry, in the order
      supplied, whatever the memory held before. */
  lemma {:induction false} ReplayWellFormed(mem: seq<Exchange>, es: seq<Entry>)
    requires forall i :: 0 <= i < |es| ==> Complete(es[i])
    ensures |Replay(mem, Document(Some(es)))| == |es|
    ensures forall i :: 0 <= i < |es| ==>
              Replay(mem, Document(Some(es)))[i] == Exchange(es[i].user.value, es[i].bot.value)
  {
  }
}

=== FILE: prompt.dfy ===
/** `ChatPrompt.summarize`: the text handed to the model when a user's history is
    summarised, one block per conversation after a fixed instruction. */
module Prompt {
  import opened Common
  import opened Text

  const Header := "以下是用户的聊天记录，请总结主要内容和关键信息，越简洁越好：\n\n"
  const UserLabel := "用户: "
  const BotLabel := "\n回复: "
  const BlockEnd := "\n\n"

  /** The block written for one conversation. */
  function Block(c: Exchange): (r: string)
    ensures |r| == |c.user| + |c.bot| + 11
  {
    UserLabel + c.user + BotLabel + c.bot + BlockEnd
  }

  /** The user message and the bot reply sit in their labelled places of the block. */
  lemma BlockParts(c: Exchange)
    ensures Block(c)[..|UserLabel|] == UserLabel
    ensures Block(c)[|UserLabel|..|UserLabel| + |c.user|] == c.user
    ensures Block(c)[|UserLabel| + |c.user|..|UserLabel| + |c.user| + |BotLabel|] == BotLabel
    ensures Block(c)[|UserLabel| + |c.user| + |BotLabel|..|Block(c)| - |BlockEnd|] == c.bot
  {
  }

  /** The characters of the conversations themselves, user messages and bot replies. */
  function TextLength(cs: seq<Exchange>): nat {
    if |cs| == 0 then 0 else TextLength(cs[..|cs| - 1]) + |cs[|cs| - 1].user| + |cs[|cs| - 1].bot|
  }

  /** The blocks of several conversations, in order. */
  function Blocks(cs: seq<Exchange>): string {
    if |cs| == 0 then "" else Blocks(cs[..|cs| - 1]) + Block(cs[|cs| - 1])
  }

  /** The summary prompt as a whole. */
  function Summary(cs: seq<Exchange>): string {
    Header + Blocks(cs)
  }

  /** `summarize`: starts from the instruction and appends one block per conversation. */
  method Summarize(cs: seq<Exchange>) returns (s: string)
    ensures s == Summary(cs)
    ensures |cs| == 0 ==> s == Header
    ensures s[..|Header|] == Header
  {
    s := Header;
    var i := 0;
    while i < |cs|
      invariant 0 <= i <= |cs|
      invariant s == Header + Blocks(cs[..i])
    {
      assert cs[..i + 1][..i] == cs[..i];
      s := s + Block(cs[i]);
      i := i + 1;
    }
    assert cs[..|cs|] == cs;
  }

  /** Blocks of a concatenation are the concatenation of the blocks. */
  lemma {:induction false} BlocksAppend(a: seq<Exchange>, b: seq<Exchange>)
    ensures Blocks(a + b) == Blocks(a) + Blocks(b)
    decreases |b|
  {
    if |b| == 0 {
      assert a + b == a;
    } else {
      var b' := b[..|b| - 1];
      var last := b[|b| - 1];
      assert (a + b)[..|a + b| - 1] == a + b';
      assert (a + b)[|a + b| - 1] == last;
      assert Blocks(a + b) == Blocks(a + b') + Block(last);
      BlocksAppend(a, b');
      assert Blocks(b) == Blocks(b') + Block(last);
    }
  }

  /** The prompt is exactly the instruction, the conversations' own text, and 11
      characters of labels and separators per conversation. */
  lemma {:induction false} SummaryLength(cs: seq<Exchange>)
    ensures |Summary(cs)| == |Header| + 11 * |cs| + TextLength(cs)
    decreases |cs|
  {
    if |cs| > 0 {
      SummaryLength(cs[..|cs| - 1]);
    }
  }

  /** The prompt is the instruction, the blocks before the i-th conversation, its block,
      and the blocks after it. */
  lemma Decompose(cs: seq<Exchange>, i: int)
    requires 0 <= i < |cs|
    ensures Summary(cs) == Header + Blocks(cs[..i]) + Block(cs[i]) + Blocks(cs[i + 1..])
  {
    assert cs == cs[..i] + [cs[i]] + cs[i + 1..];
    BlocksAppend(cs[..i] + [cs[i]], cs[i + 1..]);
    BlocksAppend(cs[..i], [cs[i]]);
    assert [cs[i]][..0] == [];
  }

  /** The i-th conversation's block sits, in full, right after the blocks of the ones
      before it: the blocks appear in the order given. */
  lemma BlockPlacement(cs: seq<Exchange>, i: int)
    requires 0 <= i < |cs|
    ensures var at := |Header| + |Blocks(cs[..i])|;
            at + |Block(cs[i])| <= |Summary(cs)| && Summary(cs)[at..at + |Block(cs[i])|] == Block(cs[i])
  {
    Decompose(cs, i);
    var pre := Header + Blocks(cs[..i]);
    assert (pre + Block(cs[i]) + Blocks(cs[i + 1..]))[|pre|..|pre| + |Block(cs[i])|] == Block(cs[i]);
  }

  /** Every user message and every bot reply appears in the prompt. */
  lemma SummaryMentionsEveryTurn(cs: seq<Exchange>, i: int)
    requires 0 <= i < |cs|
    ensures Contains(Summary(cs), cs[i].user) && Contains(Summary(cs), cs[i].bot)
  {
    Decompose(cs, i);
    var pre := Header + Blocks(cs[..i]);
    var post := Blocks(cs[i + 1..]);
    var c := cs[i];
    assert Summary(cs) == pre + UserLabel + c.user + (BotLabel + c.bot + BlockEnd + post);
    ContainsPart(pre + UserLabel, c.user, BotLabel + c.bot + BlockEnd + post);
    assert Summary(cs) == pre + UserLabel + c.user + BotLabel + c.bot + (BlockEnd + post);
    ContainsPart(pre + UserLabel + c.user + BotLabel, c.bot, BlockEnd + post);
  }
}

=== FILE: records.dfy ===
/** The records of the shared vector store, the metadata filter both history stores use,
    and the external collaborators (vector index search, embedding model) the store code
    calls. */
module Records {
  import opened Common
  import StableSort

  /** The metadata `type` of every conversation turn. */
  const Conversation := "conversation"

  /** A document's `page_content`. Turns written by `save_conversation` are the JSON
      object `{"user", "bot", "timestamp"}`; anything else in the shared collection
      (knowledge-base chunks, hand-written documents) is raw text that yields no
      `{user, bot}` entry when loaded. */
  datatype Page =
    | Dumped(user: string, bot: string, timestamp: string)
    | Raw(text: string)

  /** A document's metadata; a key the document does not carry is `None`. */
  datatype Metadata = Metadata(userId: Option<string>, kind: Option<string>, timestamp: Option<string>)

  datatype Record = Record(page: Page, metadata: Metadata)

  /** The filter `{"$and": [{"user_id": {"$eq": user}}, {"type": {"$eq": "conversation"}}]}`
      used by every search and delete of the history code. A missing key never matches. */
  predicate IsConversationOf(r: Record, user: string) {
    r.metadata.userId == Some(user) && r.metadata.kind == Some(Conversation)
  }

  /** The records the filter lets through, in store order. */
  function Conversations(store: seq<Record>, user: string): (r: seq<Record>)
    ensures |r| <= |store|
    ensures forall x :: x in r <==> x in store && IsConversationOf(x, user)
  {
    if |store| == 0 then []
    else (if IsConversationOf(store[0], user) then [store[0]] else []) + Conversations(store[1..], user)
  }

  /** Filtering distributes over concatenation. */
  lemma {:induction false} ConversationsAppend(a: seq<Record>, b: seq<Record>, user: string)
    ensures Conversations(a + b, user) == Conversations(a, user) + Conversations(b, user)
    decreases |a|
  {
    if |a| == 0 {
      assert a + b == b;
    } else {
      assert (a + b)[1..] == a[1..] + b;
      ConversationsAppend(a[1..], b, user);
    }
  }

  /** Appending one record extends the filtered view by that record exactly when the
      filter lets it through. */
  lemma ConversationsSnoc(store: seq<Record>, rec: Record, user: string)
    ensures Conversations(store + [rec], user) ==
            Conversations(store, user) + (if IsConversationOf(rec, user) then [rec] else [])
  {
    ConversationsAppend(store, [rec], user);
    assert [rec][1..] == [];
  }

  /** A store holding none of the user's conversation records filters to nothing. */
  lemma {:induction false} NoConversations(store: seq<Record>, user: string)
    requires forall x :: x in store ==> !IsConversationOf(x, user)
    ensures Conversations(store, user) == []
    decreases |store|
  {
    if |store| > 0 {
      NoConversations(store[1..], user);
    }
  }

  /** The records written by `save_conversation` in either history store: content and
      metadata carry the same timestamp. */
  function TurnRecord(user: string, userMessage: string, botResponse: string, now: string): (r: Record)
    ensures IsConversationOf(r, user)
    ensures r.metadata.timestamp == Some(now) && r.page.Dumped? && r.page.timestamp == now
    ensures EntryOf(r) == Some(Exchange(userMessage, botResponse))
  {
    Record(Dumped(userMessage, botResponse, now), Metadata(Some(user), Some(Conversation), Some(now)))
  }

  /** A store write: whether it took place, and the store afterwards. */
  datatype Write = Write(ok: bool, store: seq<Record>)

  /** `add_documents`: whether the index (which embeds the new document) accepts it
      rather than raising. */
  type Indexer = Record -> bool

  /** What the index answers to a filtered search: `None` when it raised, otherwise at
      most `k` of the candidate records the filter let through (each at most once, so
      never more than there are candidates). */
  predicate IsHitList(answer: Option<seq<Record>>, candidates: seq<Record>, k: nat) {
    answer.Some? ==>
      && |answer.value| <= k
      && |answer.value| <= |candidates|
      && forall r :: r in answer.value ==> r in candidates
  }

  ghost predicate Retrieves(search: (string, seq<Record>, nat) -> Option<seq<Record>>) {
    forall q, c, k :: IsHitList(search(q, c, k), c, k)
  }

  /** Chroma's `similarity_search(query, k, filter)`: the query text, the records passing
      the filter and `k` in; which of them come back, and in which order, is up to the
      index. */
  type Search = f: (string, seq<Record>, nat) -> Option<seq<Record>> | Retrieves(f)
    witness (q: string, c: seq<Record>, k: nat) => Some([])

  type Vector = seq<real>

  /** The embedding model. `embed` is `embed_query` (None when it raises);
      `similarity(v, p)` embeds the page's whole serialized content (user, bot and
      timestamp, not the user text alone) and returns its cosine with `v`, or None when
      that embedding or the cosine raised. */
  datatype Embedder = Embedder(embed: string -> Option<Vector>, similarity: (Vector, Page) -> Option<real>)

  /** The `{user, bot}` entry `json.loads(page_content)` yields, if any. */
  function EntryOf(r: Record): Option<Exchange> {
    match r.page
    case Dumped(u, b, _) => Some(Exchange(u, b))
    case Raw(_) => None
  }

  /** The loop of `load_recent_history`: parse each document, skip the ones that fail. */
  function Entries(docs: seq<Record>): (r: seq<Exchange>)
    ensures |r| <= |docs|
    ensures forall e :: e in r ==> exists d :: d in docs && EntryOf(d) == Some(e)
    ensures forall d :: d in docs && EntryOf(d).Some? ==> EntryOf(d).value in r
  {
    if |docs| == 0 then []
    else
      (match EntryOf(docs[0]) case Some(e) => [e] case None => []) + Entries(docs[1..])
  }

  /** Parsing goes hit by hit: the entries of consecutive hit lists follow each other,
      so the entries keep the order of the hits. */
  lemma {:induction false} EntriesAppend(a: seq<Record>, b: seq<Record>)
    ensures Entries(a + b) == Entries(a) + Entries(b)
    decreases |a|
  {
    if |a| == 0 {
      assert a + b == b;
    } else {
      assert (a + b)[1..] == a[1..] + b;
      EntriesAppend(a[1..], b);
    }
  }

  /** `x.get("timestamp", "")` on a loaded entry: entries only carry "user" and "bot". */
  function TimestampKey(e: Exchange): string {
    ""
  }

  /** Both stores' `load_recent_history`, parameterised by the query text it searches
      with: filtered search, parse, then the timestamp sort. */
  function LoadHistory(search: Search, store: seq<Record>, user: string, query: string, limit: nat): (r: seq<Exchange>)
    ensures |r| <= limit
    ensures search(query, Conversations(store, user), limit).None? ==> r == []
    ensures forall hits :: search(query, Conversations(store, user), limit) == Some(hits) ==> r == Entries(hits)
    ensures forall e :: e in r ==> exists d :: d in store && IsConversationOf(d, user) && EntryOf(d) == Some(e)
  {
    match search(query, Conversations(store, user), limit)
    case None => []
    case Some(hits) =>
      var entries := Entries(hits);
      StableSort.SortDescConstantKey(entries, TimestampKey, "");
      StableSort.SortDesc(entries, TimestampKey)
  }

  /** A user without conversation records loads nothing back, whatever the index does. */
  lemma NothingToLoad(search: Search, store: seq<Record>, user: string, query: string, limit: nat)
    requires Conversations(store, user) == []
    ensures LoadHistory(search, store, user, query, limit) == []
  {
    match search(query, Conversations(store, user), limit)
    case None =>
    case Some(hits) =>
      assert IsHitList(search(query, Conversations(store, user), limit), Conversations(store, user), limit);
  }
}

=== FILE: service_llm.dfy ===
/** `LLM.process_customer_question` of the service package: one customer turn. The user's
    memory (an unbounded buffer) is reconciled from the caller's JSON history or the
    store, rendered for the agent, extended with the new exchange, and the turn is saved
    through the duplicate-gated store when there is a user id. */
module ServiceLlm {
  import opened Common
  import opened Records
  import opened Memory
  import Store = ChatHistoryStore

  /** The collaborators of one call: the agent, `json.loads` of the caller's history,
      the store's index and embedding model, and the clock reading used as timestamp. */
  datatype Env = Env(agent: Agent, decode: string -> CallerJson, backend: Store.Backend, now: string)

  /** The process state a turn reads and changes: every user's memory and the store. */
  datatype State = State(memories: Memories, store: seq<Record>)

  /** The state after a turn, and what the call returned or raised. */
  datatype Turn = Turn(state: State, reply: Result<string>)

  /** The memory as it stands when the agent is invoked. Caller history, when truthy,
      decides alone; otherwise a truthy user id makes a non-empty store load replace the
      memory; otherwise the memory is used as it is. */
  function Prepared(env: Env, st: State, userId: Option<string>, chatHistory: Option<string>): (r: seq<Exchange>)
    // every exchange the agent sees was already in this user's memory, came from the
    // caller's document, or (without caller history) from this user's stored turns
    ensures forall e :: e in r ==>
              || e in MemoryOf(st.memories, userId)
              || (Truthy(chatHistory) && FromDocument(env.decode(chatHistory.value), e))
              || (!Truthy(chatHistory) && Truthy(userId) &&
                  exists d :: d in st.store && IsConversationOf(d, userId.value) && EntryOf(d) == Some(e))
  {
    var mem := MemoryOf(st.memories, userId);
    if Truthy(chatHistory) then Replay(mem, env.decode(chatHistory.value))
    else if Truthy(userId) then
      var loaded := Store.LoadRecentHistory(env.backend, st.store, userId.value, Store.DefaultLimit);
      if |loaded| > 0 then loaded else mem
    else mem
  }

  function ProcessCustomerQuestion(env: Env, st: State, question: string, userId: Option<string>, chatHistory: Option<string>): (t: Turn)
    // only this user's memory is created or changed
    ensures t.state.memories.Keys == st.memories.Keys + {userId}
    ensures forall key :: key in st.memories && key != userId ==> t.state.memories[key] == st.memories[key]
    // the agent sees the whole prepared memory; a raising agent leaves the prepared memory behind
    ensures env.agent(question, Messages(Prepared(env, st, userId, chatHistory))).None? ==>
              t.reply == Err(AgentFailed) && t.state.store == st.store &&
              t.state.memories[userId] == Prepared(env, st, userId, chatHistory)
    ensures forall out :: env.agent(question, Messages(Prepared(env, st, userId, chatHistory))) == Some(out) ==>
              t.state.memories[userId] == Prepared(env, st, userId, chatHistory) + [Exchange(question, out)]
    ensures t.reply.Ok? ==> env.agent(question, Messages(Prepared(env, st, userId, chatHistory))) == Some(t.reply.value)
    // the store changes only by this user's turn, and only when there is a user id
    ensures !Truthy(userId) ==> t.state.store == st.store
    ensures t.state.store != st.store ==>
              Truthy(userId) && t.reply.Ok? &&
              t.state.store == st.store + [TurnRecord(userId.value, question, t.reply.value, env.now)]
  {
    var mem := Prepared(env, st, userId, chatHistory);
    match env.agent(question, Messages(mem))
    case None => Turn(State(st.memories[userId := mem], st.store), Err(AgentFailed))
    case Some(out) =>
      var memories := st.memories[userId := mem + [Exchange(question, out)]];
      if Truthy(userId) then
        match Store.SaveConversation(env.backend, st.store, userId.value, question, out, env.now)
        case Err(e) => Turn(State(memories, st.store), Err(e))
        case Ok(w) => Turn(State(memories, w.store), Ok(out))
      else Turn(State(memories, st.store), Ok(out))
  }

  /** Caller history that parses to a well-formed document wins over memory and store:
      the agent sees exactly its entries, in the order supplied. */
  lemma {:induction false} CallerHistoryTakesPrecedence(env: Env, st: State, userId: Option<string>, chatHistory: Option<string>, es: seq<Entry>)
    requires Truthy(chatHistory) && env.decode(chatHistory.value) == Document(Some(es))
    requires forall i :: 0 <= i < |es| ==> Complete(es[i])
    ensures |Prepared(env, st, userId, chatHistory)| == |es|
    ensures forall i :: 0 <= i < |es| ==> Prepared(env, st, userId, chatHistory)[i] == Exchange(es[i].user.value, es[i].bot.value)
  {
    ReplayWellFormed(MemoryOf(st.memories, userId), es);
  }

  /** A document without a "history" key empties the memory. */
  lemma MissingHistoryKeyEmptiesMemory(env: Env, st: State, userId: Option<string>, chatHistory: Option<string>)
    requires Truthy(chatHistory) && env.decode(chatHistory.value) == Document(None)
    ensures Prepared(env, st, userId, chatHistory) == []
  {
  }

  /** Caller history that does not parse leaves the memory as it was (the parse comes
      before the clear), and the store is not consulted. */
  lemma UnparsableCallerHistoryKeepsMemory(env: Env, st: State, userId: Option<string>, chatHistory: Option<string>)
    requires Truthy(chatHistory) && env.decode(chatHistory.value) == Unparsable
    ensures Prepared(env, st, userId, chatHistory) == MemoryOf(st.memories, userId)
  {
  }

  /** With no caller history and a user id, a non-empty load from the store replaces the
      memory on every turn, warm or not, in the order the index returned the records. */
  lemma StoreHistoryReplacesMemory(env: Env, st: State, userId: Option<string>, chatHistory: Option<string>, hits: seq<Record>)
    requires !Truthy(chatHistory) && Truthy(userId)
    requires env.backend.search(Store.HistoryQuery, Conversations(st.store, userId.value), Store.DefaultLimit) == Some(hits)
    requires Entries(hits) != []
    ensures Prepared(env, st, userId, chatHistory) == Entries(hits)
  {
  }

  /** An empty load, including one where the index raised, leaves the memory as it was. */
  lemma EmptyLoadKeepsMemory(env: Env, st: State, userId: Option<string>, chatHistory: Option<string>)
    requires !Truthy(chatHistory) && Truthy(userId)
    requires Store.LoadRecentHistory(env.backend, st.store, userId.value, Store.DefaultLimit) == []
    ensures Prepared(env, st, userId, chatHistory) == MemoryOf(st.memories, userId)
  {
  }

  /** Without caller history and without a user id the memory is used as it is, and a
      first call starts from an empty memory. */
  lemma AnonymousUsesMemoryAsIs(env: Env, st: State, userId: Option<string>, chatHistory: Option<string>)
    requires !Truthy(chatHistory) && !Truthy(userId)
    ensures Prepared(env, st, userId, chatHistory) == MemoryOf(st.memories, userId)
    ensures userId !in st.memories ==> Prepared(env, st, userId, chatHistory) == []
  {
  }

  /** With a user id the turn goes through the store's `save_conversation`, whose verdict
      does not change the reply; a raising save makes the call raise even though the
      memory already holds the new exchange. */
  lemma PersistsThroughGatedSave(env: Env, st: State, question: string, userId: Option<string>, chatHistory: Option<string>, out: string)
    ensures Truthy(userId) && env.agent(question, Messages(Prepared(env, st, userId, chatHistory))) == Some(out) ==>
            var t := ProcessCustomerQuestion(env, st, question, userId, chatHistory);
            var saved := Store.SaveConversation(env.backend, st.store, userId.value, question, out, env.now);
            && t.state.memories[userId] == Prepared(env, st, userId, chatHistory) + [Exchange(question, out)]
            && (saved.Ok? ==> t.reply == Ok(out) && t.state.store == saved.value.store)
            && (saved.Err? ==> t.reply == Err(saved.error) && t.state.store == st.store)
  {
  }

  /** Without a user id the reply is the agent's output and nothing is persisted. */
  lemma AnonymousTurnNotPersisted(env: Env, st: State, question: string, userId: Option<string>, chatHistory: Option<string>, out: string)
    requires !Truthy(userId)
    requires env.agent(question, Messages(Prepared(env, st, userId, chatHistory))) == Some(out)
    ensures ProcessCustomerQuestion(env, st, question, userId, chatHistory).reply == Ok(out)
    ensures ProcessCustomerQuestion(env, st, question, userId, chatHistory).state.store == st.store
  {
  }
}

=== FILE: sort.dfy ===
/** A model of Python's `list.sort(key=..., reverse=True)` on string keys: a stable sort
    into descending key order. Keys compare as Python compares `str` values,
    lexicographically by code point. */
module StableSort {

  /** Python's `a < b` on strings. */
  predicate Below(a: string, b: string)
    decreases |a|
  {
    if |a| == 0 then |b| > 0
    else if |b| == 0 then false
    else if a[0] == b[0] then Below(a[1..], b[1..])
    else a[0] < b[0]
  }

  lemma {:induction false} BelowIrreflexive(a: string)
    ensures !Below(a, a)
    decreases |a|
  {
    if |a| > 0 {
      BelowIrreflexive(a[1..]);
    }
  }

  lemma {:induction false} BelowAsymmetric(a: string, b: string)
    ensures Below(a, b) ==> !Below(b, a)
    decreases |a|
  {
    if |a| > 0 && |b| > 0 && a[0] == b[0] {
      BelowAsymmetric(a[1..], b[1..]);
    }
  }

  /** "Not below" (Python's `>=`) is transitive. */
  lemma {:induction false} AtLeastTransitive(a: string, b: string, c: string)
    requires !Below(a, b) && !Below(b, c)
    ensures !Below(a, c)
    decreases |a|
  {
    if |a| > 0 && |b| > 0 && |c| > 0 && a[0] == b[0] && b[0] == c[0] {
      AtLeastTransitive(a[1..], b[1..], c[1..]);
    }
  }

  /** Every element's key is `>=` the key of every later element. */
  ghost predicate Descending<T>(s: seq<T>, key: T -> string) {
    forall i, j :: 0 <= i < j < |s| ==> !Below(key(s[i]), key(s[j]))
  }

  /** Places `x` after the last element whose key is `>=` its own: equal keys keep their
      arrival order, which is what makes the sort stable. */
  function Insert<T>(s: seq<T>, x: T, key: T -> string): (r: seq<T>)
    ensures |r| == |s| + 1
    ensures multiset(r) == multiset(s) + multiset{x}
  {
    if |s| == 0 then [x]
    else if Below(key(s[|s| - 1]), key(x)) then
      assert s == s[..|s| - 1] + [s[|s| - 1]];
      Insert(s[..|s| - 1], x, key) + [s[|s| - 1]]
    else s + [x]
  }

  /** Insertion sort, one element at a time in input order. */
  function SortDesc<T>(xs: seq<T>, key: T -> string): (r: seq<T>)
    ensures multiset(r) == multiset(xs)
  {
    if |xs| == 0 then []
    else
      assert xs == xs[..|xs| - 1] + [xs[|xs| - 1]];
      Insert(SortDesc(xs[..|xs| - 1], key), xs[|xs| - 1], key)
  }

  lemma {:induction false} InsertDescending<T>(s: seq<T>, x: T, key: T -> string)
    requires Descending(s, key)
    ensures Descending(Insert(s, x, key), key)
    decreases |s|
  {
    if |s| == 0 {
    } else {
      var init, last := s[..|s| - 1], s[|s| - 1];
      assert s == init + [last];
      if Below(key(last), key(x)) {
        InsertDescending(init, x, key);
        var ins := Insert(init, x, key);
        BelowAsymmetric(key(last), key(x));
        forall y | y in ins
          ensures !Below(key(y), key(last))
        {
          assert y in multiset(ins);
          if y != x {
            assert y in multiset(init);
            var i :| 0 <= i < |init| && init[i] == y;
            assert s[i] == y;
          }
        }
        var r := ins + [last];
        forall i, j | 0 <= i < j < |r|
          ensures !Below(key(r[i]), key(r[j]))
        {
          if j == |r| - 1 {
            assert r[i] in ins;
          }
        }
      } else {
        var r := s + [x];
        forall i, j | 0 <= i < j < |r|
          ensures !Below(key(r[i]), key(r[j]))
        {
          if j == |r| - 1 && i < |s| - 1 {
            AtLeastTransitive(key(s[i]), key(last), key(x));
          }
        }
      }
    }
  }

  /** The result is in descending key order. */
  lemma {:induction false} SortDescIsDescending<T>(xs: seq<T>, key: T -> string)
    ensures Descending(SortDesc(xs, key), key)
    decreases |xs|
  {
    if |xs| > 0 {
      SortDescIsDescending(xs[..|xs| - 1], key);
      InsertDescending(SortDesc(xs[..|xs| - 1], key), xs[|xs| - 1], key);
    }
  }

  /** Stability in its simplest form: when every element has the same key, the sort
      leaves the sequence exactly as it was. */
  lemma {:induction false} SortDescConstantKey<T>(xs: seq<T>, key: T -> string, k: string)
    requires forall i :: 0 <= i < |xs| ==> key(xs[i]) == k
    ensures SortDesc(xs, key) == xs
    decreases |xs|
  {
    if |xs| > 0 {
      var init := xs[..|xs| - 1];
      SortDescConstantKey(init, key, k);
      BelowIrreflexive(k);
      if |init| > 0 {
        assert key(init[|init| - 1]) == k;
      }
      assert xs == init + [xs[|xs| - 1]];
    }
  }
}

=== FILE: text.dfy ===
/** Python's substring test `sub in s` on strings. */
module Text {

  /** `sub` occurs in `s` starting at index `i`. */
  predicate OccursAt(s: string, sub: string, i: int) {
    0 <= i && i + |sub| <= |s| && s[i..i + |sub|] == sub
  }

  /** `sub in s`, scanning `s` from the left. */
  predicate Contains(s: string, sub: string)
    decreases |s|
  {
    if |sub| > |s| then false
    else if s[..|sub|] == sub then true
    else Contains(s[1..], sub)
  }

  /** The scan finds `sub` exactly when it occurs somewhere in `s`. */
  lemma {:induction false} ContainsIffOccurs(s: string, sub: string)
    ensures Contains(s, sub) <==> exists i :: OccursAt(s, sub, i)
    decreases |s|
  {
    if |sub| > |s| {
    } else if s[..|sub|] == sub {
      assert OccursAt(s, sub, 0);
    } else {
      ContainsIffOccurs(s[1..], sub);
      ShiftOccurrence(s, sub);
    }
  }

  /** Occurrences past the first index are exactly the occurrences in the tail. */
  lemma ShiftOccurrence(s: string, sub: string)
    requires |s| > 0 && !OccursAt(s, sub, 0)
    ensures (exists i :: OccursAt(s, sub, i)) <==> (exists j :: OccursAt(s[1..], sub, j))
  {
    if exists i :: OccursAt(s, sub, i) {
      var i :| OccursAt(s, sub, i);
      assert s[1..][i - 1..i - 1 + |sub|] == s[i..i + |sub|];
      assert OccursAt(s[1..], sub, i - 1);
    }
    if exists j :: OccursAt(s[1..], sub, j) {
      var j :| OccursAt(s[1..], sub, j);
      assert s[j + 1..j + 1 + |sub|] == s[1..][j..j + |sub|];
      assert OccursAt(s, sub, j + 1);
    }
  }

  /** A string contains each of its parts. */
  lemma ContainsPart(a: string, sub: string, b: string)
    ensures Contains(a + sub + b, sub)
  {
    assert (a + sub + b)[|a|..|a| + |sub|] == sub;
    assert OccursAt(a + sub + b, sub, |a|);
    ContainsIffOccurs(a + sub + b, sub);
  }
}

=== FILE: tools.dfy ===
/** The agent's keyword tools: deterministic first-match classifiers over substrings of
    the question, against a fixed current date of 2025-03-03. */
module Tools {
  import opened Common
  import opened Text
  import Dates

  const CurrentDate := "2025-03-03"

  /** The date `datetime.strptime(CurrentDate, "%Y-%m-%d")` reads. */
  const Today := Dates.Date(2025, 3, 3)

  lemma TodayIsCurrentDate()
    ensures Dates.Parse(CurrentDate) == Some(Today)
    ensures Dates.Format(Today) == CurrentDate
  {
    assert Dates.Pad4(2025) == "2025";
    assert Dates.Pad2(3) == "03";
    assert Dates.Format(Today) == CurrentDate;
    Dates.ParseFormat(Today);
  }

  function Yesterday(): string {
    Dates.Format(Dates.Prev(Today))
  }

  function Tomorrow(): string {
    Dates.Format(Dates.Next(Today))
  }

  /** The `rules` table of `extract_json_from_question`. */
  function Rules(): map<string, string> {
    map["今天" := CurrentDate, "昨天" := Yesterday(), "明天" := Tomorrow(),
        "订单" := "order", "发货" := "shipment", "购买" := "purchase"]
  }

  /** The three relative dates the tools compute. */
  lemma RuleDates()
    ensures Rules()["今天"] == "2025-03-03"
    ensures Rules()["昨天"] == Yesterday() == "2025-03-02"
    ensures Rules()["明天"] == Tomorrow() == "2025-03-04"
  {
    TodayIsCurrentDate();
    assert Dates.Prev(Today) == Dates.Date(2025, 3, 2);
    assert Dates.Next(Today) == Dates.Date(2025, 3, 4);
    assert Dates.Pad2(2) == "02";
    assert Dates.Pad2(4) == "04";
  }

  /** Date keywords, in the order they are tried. */
  const DateKeywords := ["今天", "昨天", "明天"]

  /** Type keywords, in the order they are tried. */
  const TypeKeywords := ["订单", "发货", "购买", "买", "包裹"]

  /** The date each date keyword stands for, and the type each type keyword stands for:
      a reference table independent of `Rules`. */
  const DateValues := ["2025-03-03", "2025-03-02", "2025-03-04"]
  const TypeValues := ["order", "shipment", "purchase", "shipment", "shipment"]

  const NoInfoMessage := "未找到日期或类型信息，请提供更多细节"

  /** The index of the first keyword (in list order) that occurs in the question. */
  function FirstKeyword(question: string, keys: seq<string>): (r: Option<nat>)
    ensures r.Some? ==> r.value < |keys| && Contains(question, keys[r.value])
    ensures r.Some? ==> forall j :: 0 <= j < r.value ==> !Contains(question, keys[j])
    ensures r.None? ==> forall j :: 0 <= j < |keys| ==> !Contains(question, keys[j])
  {
    if |keys| == 0 then None
    else if Contains(question, keys[0]) then Some(0)
    else match FirstKeyword(question, keys[1..])
      case Some(i) => Some(i + 1)
      case None => None
  }

  /** One key of the JSON object the tool returns, in insertion order. */
  datatype Field = Field(key: string, value: string)

  /** `json_data.get(key)`: keys are inserted at most once. */
  function Get(fields: seq<Field>, key: string): Option<string> {
    if |fields| == 0 then None
    else if fields[0].key == key then Some(fields[0].value)
    else Get(fields[1..], key)
  }

  lemma {:induction false} GetAppend(a: seq<Field>, b: seq<Field>, key: string)
    ensures Get(a + b, key) == if Get(a, key).Some? then Get(a, key) else Get(b, key)
    decreases |a|
  {
    if |a| > 0 {
      assert (a + b)[1..] == a[1..] + b;
      GetAppend(a[1..], b, key);
    } else {
      assert a + b == b;
    }
  }

  /** The `date` (or `error`) field of `extract_json_from_question`. */
  function DateFields(question: string): seq<Field> {
    var rules := Rules();
    match FirstKeyword(question, DateKeywords)
    case None => []
    case Some(i) =>
      if DateKeywords[i] in rules then [Field("date", rules[DateKeywords[i]])]
      else [Field("error", "未找到 " + DateKeywords[i] + " 的日期规则")]
  }

  /** The `type` field of `extract_json_from_question`, with "shipment" as the default
      of `rules.get`. */
  function TypeFields(question: string): seq<Field> {
    var rules := Rules();
    match FirstKeyword(question, TypeKeywords)
    case None => []
    case Some(i) => [Field("type", if TypeKeywords[i] in rules then rules[TypeKeywords[i]] else "shipment")]
  }

  /** `extract_json_from_question`, up to the final `json.dumps`: the fields of the
      object, in the order they are inserted. */
  function ExtractJsonFromQuestion(question: string): (r: seq<Field>)
    ensures forall f :: f in r ==> f.key in {"date", "type", "message"}
    ensures Get(r, "error") == None
  {
    RulesCoverKeywords();
    var d := FirstKeyword(question, DateKeywords);
    var dateFound := d.Some? && DateKeywords[d.value] in Rules();
    var typeFound := FirstKeyword(question, TypeKeywords).Some?;
    var messageFields := if !dateFound && !typeFound then [Field("message", NoInfoMessage)] else [];
    var r := DateFields(question) + TypeFields(question) + messageFields;
    GetAppend(DateFields(question) + TypeFields(question), messageFields, "error");
    GetAppend(DateFields(question), TypeFields(question), "error");
    r
  }

  /** Every keyword the tool looks for has its entry in `rules` except 买 and 包裹, and
      the entries agree with the reference tables. */
  lemma RulesCoverKeywords()
    ensures forall i :: 0 <= i < |DateKeywords| ==> DateKeywords[i] in Rules() && Rules()[DateKeywords[i]] == DateValues[i]
    ensures forall i :: 0 <= i < |TypeKeywords| ==>
              (if TypeKeywords[i] in Rules() then Rules()[TypeKeywords[i]] else "shipment") == TypeValues[i]
  {
    RuleDates();
  }

  /** The date is that of the first date keyword found, in the order 今天, 昨天, 明天;
      since every date keyword has a rule, no `error` field ever appears. */
  lemma ExtractedDate(question: string)
    ensures Get(ExtractJsonFromQuestion(question), "date") ==
              match FirstKeyword(question, DateKeywords)
              case Some(i) => Some(DateValues[i])
              case None => None
  {
    RulesCoverKeywords();
    var d := FirstKeyword(question, DateKeywords);
    var dateFound := d.Some? && DateKeywords[d.value] in Rules();
    var typeFound := FirstKeyword(question, TypeKeywords).Some?;
    var messageFields := if !dateFound && !typeFound then [Field("message", NoInfoMessage)] else [];
    GetAppend(DateFields(question) + TypeFields(question), messageFields, "date");
    GetAppend(DateFields(question), TypeFields(question), "date");
  }

  /** The type is that of the first type keyword found, in the order 订单, 发货, 购买,
      买, 包裹. */
  lemma ExtractedType(question: string)
    ensures Get(ExtractJsonFromQuestion(question), "type") ==
              match FirstKeyword(question, TypeKeywords)
              case Some(i) => Some(TypeValues[i])
              case None => None
  {
    RulesCoverKeywords();
    var d := FirstKeyword(question, DateKeywords);
    var dateFound := d.Some? && DateKeywords[d.value] in Rules();
    var typeFound := FirstKeyword(question, TypeKeywords).Some?;
    var messageFields := if !dateFound && !typeFound then [Field("message", NoInfoMessage)] else [];
    GetAppend(DateFields(question) + TypeFields(question), messageFields, "type");
    GetAppend(DateFields(question), TypeFields(question), "type");
  }

  /** The hint message is there exactly when the question holds no date and no type
      keyword. */
  lemma ExtractedMessage(question: string)
    ensures Get(ExtractJsonFromQuestion(question), "message").Some? <==>
              (forall j :: 0 <= j < |DateKeywords| ==> !Contains(question, DateKeywords[j])) &&
              (forall j :: 0 <= j < |TypeKeywords| ==> !Contains(question, TypeKeywords[j]))
    ensures Get(ExtractJsonFromQuestion(question), "message").Some? ==>
              Get(ExtractJsonFromQuestion(question), "message") == Some(NoInfoMessage)
  {
    RulesCoverKeywords();
    var d := FirstKeyword(question, DateKeywords);
    var dateFound := d.Some? && DateKeywords[d.value] in Rules();
    var typeFound := FirstKeyword(question, TypeKeywords).Some?;
    var messageFields := if !dateFound && !typeFound then [Field("message", NoInfoMessage)] else [];
    GetAppend(DateFields(question) + TypeFields(question), messageFields, "message");
    GetAppend(DateFields(question), TypeFields(question), "message");
  }

  /** The first date keyword decides: a question saying both 今天 and 昨天 is about
      today, one saying 昨天 and 明天 (but not 今天) about yesterday. */
  lemma DatePriority(question: string)
    ensures Contains(question, "今天") ==> Get(ExtractJsonFromQuestion(question), "date") == Some("2025-03-03")
    ensures !Contains(question, "今天") && Contains(question, "昨天") ==>
              Get(ExtractJsonFromQuestion(question), "date") == Some("2025-03-02")
    ensures !Contains(question, "今天") && !Contains(question, "昨天") && Contains(question, "明天") ==>
              Get(ExtractJsonFromQuestion(question), "date") == Some("2025-03-04")
  {
    ExtractedDate(question);
    assert DateKeywords[0] == "今天" && DateKeywords[1] == "昨天" && DateKeywords[2] == "明天";
  }

  /** 购买 is found before 买, and 包裹 falls back to the shipment type. */
  lemma TypeFallback(question: string)
    ensures Contains(question, "购买") && !Contains(question, "订单") && !Contains(question, "发货") ==>
              Get(ExtractJsonFromQuestion(question), "type") == Some("purchase")
    ensures Contains(question, "包裹") && !Contains(question, "订单") && !Contains(question, "发货")
            && !Contains(question, "购买") && !Contains(question, "买") ==>
              Get(ExtractJsonFromQuestion(question), "type") == Some("shipment")
  {
    ExtractedType(question);
    assert TypeKeywords[0] == "订单" && TypeKeywords[1] == "发货" && TypeKeywords[2] == "购买";
    assert TypeKeywords[3] == "买" && TypeKeywords[4] == "包裹";
  }

  const OrderSearchPrefix := "搜索结果：假设为ABC公司，"
  const OrderSearchSuffix := "的订单包括：订单1（商品A，数量10），订单2（商品B，数量5）。"
  const SearchPrefix := "搜索结果："
  const ShipmentSearchSuffix := "的发货情况：已发货3个包裹，分别是包裹A、包裹B和包裹C。"
  const PurchaseSearchSuffix := "的购买计划：计划购买商品X（数量20）和商品Y（数量15）。"
  const NoSearchResult := "暂无相关信息，请提供更具体的问题或上下文。"

  /** `web_search`: three two-keyword branches tried in order, else the fixed answer. */
  function WebSearch(query: string): (r: string)
    ensures r == NoSearchResult <==>
              !(Contains(query, "订单") && Contains(query, "2025")) && !(Contains(query, "发货") && Contains(query, "昨天"))
              && !(Contains(query, "购买") && Contains(query, "明天"))
  {
    RuleDates();
    if Contains(query, "订单") && Contains(query, "2025") then OrderSearchPrefix + CurrentDate + OrderSearchSuffix
    else if Contains(query, "发货") && Contains(query, "昨天") then SearchPrefix + Yesterday() + ShipmentSearchSuffix
    else if Contains(query, "购买") && Contains(query, "明天") then SearchPrefix + Tomorrow() + PurchaseSearchSuffix
    else NoSearchResult
  }

  /** The answers `web_search` gives, with the relative dates worked out. */
  lemma WebSearchAnswers(query: string)
    ensures Contains(query, "订单") && Contains(query, "2025") ==>
              WebSearch(query) == OrderSearchPrefix + "2025-03-03" + OrderSearchSuffix
    ensures !(Contains(query, "订单") && Contains(query, "2025")) && Contains(query, "发货") && Contains(query, "昨天") ==>
              WebSearch(query) == SearchPrefix + "2025-03-02" + ShipmentSearchSuffix
    ensures !(Contains(query, "订单") && Contains(query, "2025")) && !(Contains(query, "发货") && Contains(query, "昨天"))
            && Contains(query, "购买") && Contains(query, "明天") ==>
              WebSearch(query) == SearchPrefix + "2025-03-04" + PurchaseSearchSuffix
  {
    RuleDates();
  }

  const OrderPost := "X帖子：用户@abc_company提到，2025年3月3日的订单包括商品A和商品B。"
  const ShipmentPost := "X帖子：用户@logistics提到，昨天发货了3个包裹。"
  const PurchasePost := "X帖子：用户@buyer计划明天购买商品X和商品Y。"
  const NoPost := "X上暂无相关信息。"

  /** `x_search`: the first of 订单, 发货, 购买 found picks a canned post, else the fixed
      answer. */
  function XSearch(query: string): (r: string)
    ensures r in {OrderPost, ShipmentPost, PurchasePost, NoPost}
    ensures r == OrderPost <==> Contains(query, "订单")
    ensures r == ShipmentPost <==> !Contains(query, "订单") && Contains(query, "发货")
    ensures r == PurchasePost <==> !Contains(query, "订单") && !Contains(query, "发货") && Contains(query, "购买")
  {
    assert |OrderPost| == 43 && |ShipmentPost| == 29 && |PurchasePost| == 26 && |NoPost| == 9;
    if Contains(query, "订单") then OrderPost
    else if Contains(query, "发货") then ShipmentPost
    else if Contains(query, "购买") then PurchasePost
    else NoPost
  }
}

=== FILE: tools_retriever.dfy ===
/** `process_customer_question` of the retriever script: a window memory of 30
    exchanges fed only by caller-supplied history. It has no store: nothing is loaded
    and nothing is persisted. */
module ToolsRetriever {
  import opened Common
  import opened Memory

  /** The collaborators of one call: the agent and `json.loads` of the caller's history. */
  datatype Env = Env(agent: Agent, decode: string -> CallerJson)

  datatype Turn = Turn(memories: Memories, reply: Result<string>)

  /** The memory when the agent is invoked: the caller's history when it is truthy,
      otherwise the memory as it is. */
  function Prepared(env: Env, memories: Memories, userId: Option<string>, chatHistory: Option<string>): (r: seq<Exchange>)
    // every exchange the agent sees was already in this user's memory or came from the
    // caller's document: nothing is ever loaded
    ensures forall e :: e in r ==>
              e in MemoryOf(memories, userId) || (Truthy(chatHistory) && FromDocument(env.decode(chatHistory.value), e))
  {
    var mem := MemoryOf(memories, userId);
    if Truthy(chatHistory) then Replay(mem, env.decode(chatHistory.value)) else mem
  }

  /** What the window memory hands the agent. */
  function Rendered(env: Env, memories: Memories, userId: Option<string>, chatHistory: Option<string>): seq<Message> {
    Messages(Window(Prepared(env, memories, userId, chatHistory), WindowSize))
  }

  /** The end of a turn: the memory as prepared, plus the new exchange when the agent
      answered, becomes this user's memory. */
  function Remember(memories: Memories, userId: Option<string>, mem: seq<Exchange>, question: string, answer: Option<string>): (t: Turn)
    ensures t.memories.Keys == memories.Keys + {userId}
    ensures forall key :: key in memories && key != userId ==> t.memories[key] == memories[key]
    ensures answer.None? ==> t.reply == Err(AgentFailed) && t.memories[userId] == mem
    ensures answer.Some? ==> t.reply == Ok(answer.value) && t.memories[userId] == mem + [Exchange(question, answer.value)]
  {
    match answer
    case None => Turn(memories[userId := mem], Err(AgentFailed))
    case Some(out) => Turn(memories[userId := mem + [Exchange(question, out)]], Ok(out))
  }

  function ProcessCustomerQuestion(env: Env, memories: Memories, question: string, userId: Option<string>, chatHistory: Option<string>): (t: Turn)
    ensures t.memories.Keys == memories.Keys + {userId}
    ensures forall key :: key in memories && key != userId ==> t.memories[key] == memories[key]
    ensures env.agent(question, Rendered(env, memories, userId, chatHistory)).None? ==>
              t.reply == Err(AgentFailed) && t.memories[userId] == Prepared(env, memories, userId, chatHistory)
    ensures forall out :: env.agent(question, Rendered(env, memories, userId, chatHistory)) == Some(out) ==>
              t.reply == Ok(out) && t.memories[userId] == Prepared(env, memories, userId, chatHistory) + [Exchange(question, out)]
  {
    Remember(memories, userId, Prepared(env, memories, userId, chatHistory), question,
             env.agent(question, Rendered(env, memories, userId, chatHistory)))
  }

  /** Without caller history the memory is used as it is: this variant never loads from
      a store. */
  lemma NoCallerHistoryKeepsMemory(env: Env, memories: Memories, userId: Option<string>, chatHistory: Option<string>)
    requires !Truthy(chatHistory)
    ensures Prepared(env, memories, userId, chatHistory) == MemoryOf(memories, userId)
  {
  }

  /** Parsed caller history replaces the memory in the order supplied; history that
      does not parse leaves the memory as it was. */
  lemma {:induction false} CallerHistoryReplacesMemory(env: Env, memories: Memories, userId: Option<string>, chatHistory: Option<string>, es: seq<Entry>)
    requires Truthy(chatHistory)
    ensures env.decode(chatHistory.value) == Unparsable ==> Prepared(env, memories, userId, chatHistory) == MemoryOf(memories, userId)
    ensures env.decode(chatHistory.value) == Document(Some(es)) && (forall i :: 0 <= i < |es| ==> Complete(es[i])) ==>
              |Prepared(env, memories, userId, chatHistory)| == |es| &&
              forall i :: 0 <= i < |es| ==> Prepared(env, memories, userId, chatHistory)[i] == Exchange(es[i].user.value, es[i].bot.value)
  {
    if env.decode(chatHistory.value) == Document(Some(es)) && (forall i :: 0 <= i < |es| ==> Complete(es[i])) {
      ReplayWellFormed(MemoryOf(memories, userId), es);
    }
  }
}
